=== FILE: README.md ===
# photos-101 list synchronisation, modelled in Dafny

This project models the synchronisation logic of the photos-101 Android app,
a Flickr browser. The app shows recent photos or search results page by page
and polls the active search in the background. The model covers:

- **The photos list view model** (`PhotosListViewModel` over the sealed
  `PhotosListState`). It has recent and search feeds, endless paging with
  deduplication by photo id, a 400 ms search debounce, and the effects it
  triggers: a poll snapshot write, the unique periodic poll work, cancelling
  both, and navigation.
- **The poll snapshot store** (`ActiveSearchPollStateDataSource`). It holds
  two preference keys, the active query and the set of first-page ids.
- **The background poll run** (`PhotosPollWorker.doWork`). It fetches page 1
  of the stored query, counts the ids it has not seen before, and rewrites the
  snapshot.
- **The pure mappers.** These turn Flickr DTOs into domain photos
  (`PhotoDtoMapper`), and HTTP responses or exceptions into `Result`s
  (`PhotoRepositoryImpl`).
- **Small pieces of logic:**
  - the grid's thumbnail URL and endless-scroll condition (`PhotosGrid`);
  - the detail screen's load (`PhotoDetailViewModel`);
  - the detail route builder (`Routes`).

Everything is a pure function over immutable datatypes.

- The view model's mutable fields are one `ListVm` value: the state, the
  search input, the debounce job, and the live loads.
- Every side effect the view model would perform is returned as an `Effect`
  instead.
- A page load is two steps. The action that begins it emits
  `StartFetch(load)` under a fresh ticket. `Complete(vm, ticket, result)`
  applies the fetch result, which is given as input. This lets results arrive
  late, in any order, or after they were superseded, as coroutines allow.
- The debounce job is one slot: nothing, a waiting commit, or the load the
  commit started. `QueryChanged` and `ClearSearch` cancel the slot. A load
  the job already started runs inside the job's coroutine, so cancelling the
  job cancels that load as well: its ticket stops being live and a late
  result changes nothing. Loads started directly by `dispatch` are never
  cancelled.

`ListProperties.RunPreservesValid` is the main invariant. It covers any
interleaving of actions, debounce firings and fetch results, provided each
delivered page repeats no photo id (a replace load installs a page as it
came):

- no photo id is shown twice;
- a results state is never empty;
- no blank search query appears anywhere;
- every live load is filed under its own ticket;
- a waiting commit is always for the text in the search field.

Modules:

| module | file | models |
|---|---|---|
| `Wrappers`, `Results` | wrappers.dfy | `Option`, Kotlin `Result`, the throwables the code distinguishes |
| `Text` | text.dfy | `isBlank`, `ifBlank`, `take`, `toIntOrNull`, `Int.toString`, splitting and joining on a character |
| `Dto` | dto.dfy | the Flickr response DTOs, with their default values |
| `Domain` | domain.dfy | `Photo`, `PagedResult`, `PhotoDetail`, `distinctBy { it.id }` |
| `ImageUrls` | image_urls.dfy | the `live.staticflickr.com` URL both the grid and the detail mapper build |
| `Mapper` | mapper.dfy | `PhotoDtoMapper.kt` |
| `Repository` | repository.dfy | `PhotoRepositoryImpl.kt` |
| `ListState` | list_state.dfy | `PhotosListState.kt` |
| `ListViewModel` | list_view_model.dfy | `PhotosListViewModel.kt` |
| `ListProperties` | list_properties.dfy | properties of the list view model, single-step and over whole event traces |
| `PollStore` | poll_store.dfy | `ActiveSearchPollStateDataSource.kt` |
| `PollWorker` | poll_worker.dfy | `PhotosPollWorker.kt` |
| `SyncProperties` | sync_properties.dfy | the view model's effects applied to the store, and the next poll run |
| `Grid` | grid.dfy | `PhotosGrid.kt` |
| `DetailViewModel` | detail_view_model.dfy | `PhotoDetailViewModel.kt` |
| `Routes` | routes.dfy | `Routes.kt` |

### Behaviour of the code worth knowing

- **Recent loads have no stale-result guard.** Only the search append path
  compares the query of the result with the state on screen
  (`PhotosListViewModel.kt:186`).
  - A recent-feed result is applied whatever the screen shows by then.
  - A search failure replaces whatever does not match with `Error`.
  - `ListProperties.LateRecentResultOverwritesSearch` states the
    consequence: a recent page that arrives late replaces search results
    already on screen.
  - A superseded debounce commit is still discarded, but by coroutine
    cancellation, not by a query check (`ListProperties.SupersededCommitDiscarded`).
- **Nothing reloads the list after a poll.** Nothing subscribes to
  `activeSearchPollState`, so a poll that sees a new first page notifies but
  never reloads the list. The model has no such step.
- **Some files come from different revisions.**
  - `PhotosListUiActions.kt` declares `Search` and `Refresh` but no
    `ClearSearch`. The model uses the six actions the `when` at
    `PhotosListViewModel.kt:70-87` handles.
  - `PhotosListScreen.kt` uses a `Photos` state that `PhotosListState.kt`
    does not declare. The model uses the five declared states.
- **`PagedResult.totalCount` is built from a string.** `PhotoRepositoryImpl.kt:70`
  assigns the string `totalRaw` to this `Int` field. The model stores
  `parseTotal(totalRaw)`.
- **`PhotoDetail` has no `description` field.** `PhotoDtoMapper.kt:30`
  passes a `description` that `PhotoDetail.kt` does not declare. The model
  keeps the five declared fields and computes the description separately
  (`Mapper.DetailDescription`).
- **The snapshot's ids are a set.** `ActiveSearchPollState.firstPagePhotoIds`
  is declared as a list, but the store saves a string set and reads it back
  with `toList()` in an unspecified order. The worker only uses the ids as a
  set, so the model carries a `set<string>`.

## Model

| member | source | states |
|---|---|---|
| Text.ToIntOrNull | app/src/main/java/com/example/photos101/data/remote/mapper/PhotoDtoMapper.kt:35 | a value exactly when the text is an optional sign followed by at least one digit (leading zeros allowed) whose value lies in the 32-bit Int range; the value is the numeral's, negated after '-'; the empty text, a lone sign, another leading character or an out-of-range numeral parse to nothing |
| Text.IsBlank | app/src/main/java/com/example/photos101/ui/photoslist/PhotosListViewModel.kt:173 | a text is blank iff it is empty, or its first character is JVM whitespace and the rest is blank |
| Text.ToIntOrNullRoundTrip | app/src/main/java/com/example/photos101/data/remote/mapper/PhotoDtoMapper.kt:35 | every Int printed in decimal parses back to itself |
| Text.Take | app/src/main/java/com/example/photos101/ui/photoslist/PhotosListViewModel.kt:207 | `take(n)` is a prefix of the list holding exactly n elements, or the whole list when it is no longer than n |
| Domain.DistinctByIdFrom | app/src/main/java/com/example/photos101/ui/photoslist/PhotosListViewModel.kt:188 | `distinctBy { it.id }` yields distinct ids, exactly the ids of the input (minus those already seen), and only photos of the input |
| Domain.KeptIndices | app/src/main/java/com/example/photos101/ui/photoslist/PhotosListViewModel.kt:188 | the positions of the kept photos in the input strictly increase and pick out exactly the result |
| Domain.DistinctKeepsOrder | app/src/main/java/com/example/photos101/ui/photoslist/PhotosListViewModel.kt:188 | the result of `distinctBy` is a subsequence of its input: the kept photos stay in input order |
| Domain.DistinctKeepsFirst | app/src/main/java/com/example/photos101/ui/photoslist/PhotosListViewModel.kt:188 | the first photo with each id is the one kept |
| Domain.DistinctAppend | app/src/main/java/com/example/photos101/ui/photoslist/PhotosListViewModel.kt:132 | deduplicating `old + new` when `old` is distinct keeps `old` as a prefix, followed by only the photos of `new` whose ids are new |
| Domain.DistinctByIdOfDistinct | app/src/main/java/com/example/photos101/ui/photoslist/PhotosListViewModel.kt:188 | a list with distinct ids is unchanged by `distinctBy` |
| Domain.IdSetAppend | app/src/main/java/com/example/photos101/ui/photoslist/PhotosListViewModel.kt:188 | the ids of a concatenation are the union of both lists' ids |
| ImageUrls.StaticImageUrlSegments | app/src/main/java/com/example/photos101/data/remote/mapper/PhotoDtoMapper.kt:23 | a static image URL splits on '/' back into scheme, host, server and `{id}_{secret}_{size}.jpg` when no part holds '/' |
| Mapper.ToDomain | app/src/main/java/com/example/photos101/data/remote/mapper/PhotoDtoMapper.kt:9-17 | id, dateTaken, secret and server are copied and urlS becomes the thumbnail; a blank title becomes "Untitled"; a present owner_name is used even when blank, otherwise the owner id, or "Unknown" when that is blank |
| Mapper.MapToDomain | app/src/main/java/com/example/photos101/data/repository/PhotoRepositoryImpl.kt:65 | the mapped list has the same length and maps each DTO in place |
| Mapper.ToDetailDomain | app/src/main/java/com/example/photos101/data/remote/mapper/PhotoDtoMapper.kt:19-32 | the title is the non-blank title content or "Untitled"; the owner is the non-blank username, else the nsid, else "Unknown" when there is no owner; dateTaken comes from dates; the large URL is the 'z' static URL of server, id and secret |
| Mapper.DetailDescription | app/src/main/java/com/example/photos101/data/remote/mapper/PhotoDtoMapper.kt:30 | the description is present exactly when its content is present and not blank, and is then that content |
| Mapper.ParseTotal | app/src/main/java/com/example/photos101/data/remote/mapper/PhotoDtoMapper.kt:35 | the value of a numeric string in the Int range ("0042" and "+42" give 42), and 0 when the string does not parse (the empty string included) |
| Mapper.ParseTotalRoundTrip | app/src/main/java/com/example/photos101/data/remote/mapper/PhotoDtoMapper.kt:35 | the total Flickr prints for any Int is parsed back to that Int |
| Repository.ApiError | app/src/main/java/com/example/photos101/data/repository/PhotoRepositoryImpl.kt:75-81 | the error is a FlickrApiException with code defaulting to -1 and message to "Unknown error" |
| Repository.ToResult | app/src/main/java/com/example/photos101/data/repository/PhotoRepositoryImpl.kt:62-73 | a result exists iff stat is "ok" and photos are present; it is a success mapping every photo in order and copying page and pages |
| Repository.ToErrorResult | app/src/main/java/com/example/photos101/data/repository/PhotoRepositoryImpl.kt:75-81 | always a FlickrApiException failure, with the response's code or -1 and its message or "Unknown error" |
| Repository.ListResponseResult | app/src/main/java/com/example/photos101/data/repository/PhotoRepositoryImpl.kt:62-81 | success iff stat is "ok" and photos are present; the items are the mapped photos in order; page and pages are copied; the total is parsed; otherwise the defaulted FlickrApiException |
| Repository.TranslateException | app/src/main/java/com/example/photos101/data/repository/PhotoRepositoryImpl.kt:83-87 | an IOException becomes a new IOException whose message is "Network error: " plus the old message and whose cause is the original; anything else passes through unchanged |
| Repository.FetchPhotos | app/src/main/java/com/example/photos101/data/repository/PhotoRepositoryImpl.kt:30-39 | a response goes through the response mapping, and a thrown exception fails with its translation |
| Repository.InfoResponseResult | app/src/main/java/com/example/photos101/data/repository/PhotoRepositoryImpl.kt:45-54 | photo info succeeds iff stat is "ok" and the photo is present, with the mapped detail; otherwise the defaulted FlickrApiException |
| Repository.FetchPhotoInfo | app/src/main/java/com/example/photos101/data/repository/PhotoRepositoryImpl.kt:41-60 | a response goes through the info mapping, and a thrown exception fails with its translation |
| Repository.FetchPhotosFailureKinds | app/src/main/java/com/example/photos101/data/repository/PhotoRepositoryImpl.kt:19-28 | every list failure is a FlickrApiException, a prefixed IOException caused by the thrown one, or the thrown non-IO exception itself |
| ListState.PhotosListState.WithLoadingMore | app/src/main/java/com/example/photos101/ui/photoslist/PhotosListState.kt:11-29 | `copy(isLoadingMore = flag)` keeps the variant, items, pages and query |
| ListViewModel.BeginRecentPage | app/src/main/java/com/example/photos101/ui/photoslist/PhotosListViewModel.kt:122-129 | a replace shows Loading for recent, an append onto recent photos marks them loading more, any other append keeps the state, and exactly one fetch of that recent page starts under a fresh ticket |
| ListViewModel.BeginSearchPage | app/src/main/java/com/example/photos101/ui/photoslist/PhotosListViewModel.kt:172-183 | a blank query does nothing at all; otherwise a replace shows Loading for the query, an append onto that query's results marks them loading more, any other append keeps the state, and exactly one fetch of that search page starts under a fresh ticket |
| ListViewModel.CommitText | app/src/main/java/com/example/photos101/ui/photoslist/PhotosListViewModel.kt:91-110 | blank text replace-loads page 1 of recent, other text page 1 of its search, showing Loading for that feed, with one fetch and the search input untouched |
| ListViewModel.CancelDebounce | app/src/main/java/com/example/photos101/ui/photoslist/PhotosListViewModel.kt:92 | cancelling the job empties the slot and stops the load it started, changing nothing else |
| ListViewModel.NextPage | app/src/main/java/com/example/photos101/ui/photoslist/PhotosListViewModel.kt:112-120 | nothing happens unless an idle results state has more pages; then it is marked loading more and page currentPage + 1 of the same feed is requested as an append under the next ticket |
| ListViewModel.OnClearSearch | app/src/main/java/com/example/photos101/ui/photoslist/PhotosListViewModel.kt:81-86 | ClearSearch cancels the debounce, cancels the poll work, clears the snapshot, empties the search input and replace-loads recent page 1 |
| ListViewModel.Dispatch | app/src/main/java/com/example/photos101/ui/photoslist/PhotosListViewModel.kt:68-89 | LoadInitial and Retry commit the search input; QueryChanged sets the input at once and replaces the pending commit with no effect; OpenPhoto only navigates |
| ListViewModel.Fire | app/src/main/java/com/example/photos101/ui/photoslist/PhotosListViewModel.kt:93-100 | the quiet period elapsing commits the waiting text, and the job then runs that load; with nothing waiting nothing happens |
| ListViewModel.Init | app/src/main/java/com/example/photos101/ui/photoslist/PhotosListViewModel.kt:35-48 | a new view model shows Loading for recent and requests recent page 1 |
| ListViewModel.RecentOutcome | app/src/main/java/com/example/photos101/ui/photoslist/PhotosListViewModel.kt:130-151 | a recent result is recent photos, Empty or Error, never for a search; success takes the page numbers and stops loading more, a replace shows exactly the page, an append shows distinct ids covering old and new, with distinct old photos kept in front; failure is Error iff it was a replace or no recent photos were shown, else only loading more stops |
| ListViewModel.SearchOutcome | app/src/main/java/com/example/photos101/ui/photoslist/PhotosListViewModel.kt:184-240 | every outcome belongs to the query; success merges distinct ids of old and new when the guard holds, keeping distinct old photos in front, otherwise shows exactly the page (or Empty) and emits the snapshot save of its first 30 ids and the poll scheduling; failure has no effects and is Error iff it was a replace or the query's results are not shown |
| ListViewModel.Complete | app/src/main/java/com/example/photos101/ui/photoslist/PhotosListViewModel.kt:122-241 | a result for a load that is not live changes nothing; a live one stops being live; the search input never changes; recent results have no effects |
| ListProperties.AppendSuccessMerges | app/src/main/java/com/example/photos101/ui/photoslist/PhotosListViewModel.kt:186-192 | a successful append onto distinct photos of the load's own feed (onto search results only while they load more) keeps the old photos as a prefix, adds only new ids, leaves no id twice, covers the union of ids, takes the page numbers from the result and clears loading more |
| ListProperties.AppendMergesWhenValid | app/src/main/java/com/example/photos101/ui/photoslist/PhotosListViewModel.kt:186-192 | in any view model satisfying the invariant, a successful append onto the feed shown keeps the old photos as a prefix with distinct ids covering both |
| ListProperties.AppendFailureKeepsResults | app/src/main/java/com/example/photos101/ui/photoslist/PhotosListViewModel.kt:233-240 | a failed append keeps items, pages and feed, and only clears loading more |
| ListProperties.ReplaceOutcome | app/src/main/java/com/example/photos101/ui/photoslist/PhotosListViewModel.kt:194-204 | a replace load ends Empty for its feed on an empty page, in a results state showing exactly the page otherwise, and Error for its feed on failure |
| ListProperties.StaleSearchAppendStartsOver | app/src/main/java/com/example/photos101/ui/photoslist/PhotosListViewModel.kt:193-240 | a search append whose guard fails shows SearchResults of exactly the page with its page numbers (or Empty for the query); its failure is Error for the query unless that query's results are shown, which then only stop loading more |
| ListProperties.SearchFirstPagePersists | app/src/main/java/com/example/photos101/ui/photoslist/PhotosListViewModel.kt:205-209 | a search page installed as a first page saves its query with the ids of its first 30 photos in order and re-enqueues "photos_poll" with REPLACE; an empty page saves nothing |
| ListProperties.CompleteEffectsOnlyFromSearchFirstPage | app/src/main/java/com/example/photos101/ui/photoslist/PhotosListViewModel.kt:154-170 | only a non-empty search page installed as a first page touches the snapshot or the scheduler |
| ListProperties.LateRecentResultOverwritesSearch | app/src/main/java/com/example/photos101/ui/photoslist/PhotosListViewModel.kt:130-142 | a recent page arriving while search results are shown replaces them (no stale guard on recent loads) |
| ListProperties.SupersededCommitDiscarded | app/src/main/java/com/example/photos101/ui/photoslist/PhotosListViewModel.kt:91-101 | after a commit has fired, the next keystroke makes its result a no-op |
| ListProperties.ClearSearchDiscardsCommittedLoad | app/src/main/java/com/example/photos101/ui/photoslist/PhotosListViewModel.kt:82 | ClearSearch makes the fired commit's result a no-op |
| ListProperties.DispatchedLoadSurvivesTyping | app/src/main/java/com/example/photos101/ui/photoslist/PhotosListViewModel.kt:72-75 | typing never cancels a load that dispatch started directly |
| ListProperties.TypingOnlyWaits | app/src/main/java/com/example/photos101/ui/photoslist/PhotosListViewModel.kt:72-75 | keystrokes within the quiet period only update the input and the waiting text; no effect, no state change |
| ListProperties.OnlyLastTextCommits | app/src/main/java/com/example/photos101/ui/photoslist/PhotosListViewModel.kt:91-101 | after any burst of keystrokes and one firing, exactly one page-1 replace load is requested, for the last text's feed |
| ListProperties.RunWithAppend | app/src/main/java/com/example/photos101/ui/photoslist/PhotosListViewModel.kt:68-89 | handling two event sequences in turn is handling their concatenation, with the effects concatenated |
| ListProperties.InitValid | app/src/main/java/com/example/photos101/ui/photoslist/PhotosListViewModel.kt:35-48 | the view model after init satisfies the invariant |
| ListProperties.CompletePreservesValid | app/src/main/java/com/example/photos101/ui/photoslist/PhotosListViewModel.kt:122-241 | applying any result, live or stale, keeps the invariant when the page itself repeats no id |
| ListProperties.HandlePreservesValid | app/src/main/java/com/example/photos101/ui/photoslist/PhotosListViewModel.kt:68-101 | every action and firing, and every result whose page repeats no id, keeps the invariant |
| ListProperties.RunPreservesValid | app/src/main/java/com/example/photos101/ui/photoslist/PhotosListViewModel.kt:68-241 | through any interleaving, no id is shown twice, a results state is never empty, no search query is blank, live loads are well filed and a waiting commit matches the input |
| PollStore.ToSet | app/src/main/java/com/example/photos101/data/local/ActiveSearchPollStateDataSource.kt:33 | `toSet()` holds exactly the listed ids |
| PollStore.Read | app/src/main/java/com/example/photos101/data/local/ActiveSearchPollStateDataSource.kt:24-28 | a snapshot exists iff both keys are present, holding their values |
| PollStore.SavePollState | app/src/main/java/com/example/photos101/data/local/ActiveSearchPollStateDataSource.kt:30-35 | a save writes the query and the set of the ids |
| PollStore.ClearPollState | app/src/main/java/com/example/photos101/data/local/ActiveSearchPollStateDataSource.kt:39-44 | a clear removes both keys |
| PollStore.GetActiveSearchPollState | app/src/main/java/com/example/photos101/data/local/ActiveSearchPollStateDataSource.kt:37 | the current value of the read rule |
| PollStore.SaveThenRead | app/src/main/java/com/example/photos101/data/local/ActiveSearchPollStateDataSource.kt:24-35 | a save reads back as its query with exactly its ids as a set, even when there are none |
| PollStore.ClearThenRead | app/src/main/java/com/example/photos101/data/local/ActiveSearchPollStateDataSource.kt:39-44 | after a clear there is no snapshot |
| PollStore.PartialReadsNothing | app/src/main/java/com/example/photos101/data/local/ActiveSearchPollStateDataSource.kt:25-26 | one key alone gives no snapshot |
| PollStore.LastWriterWins | app/src/main/java/com/example/photos101/data/local/ActiveSearchPollStateDataSource.kt:31-34 | a save replaces both keys whatever was saved or cleared before |
| PollStore.SaveForgetsOrderAndRepeats | app/src/main/java/com/example/photos101/data/local/ActiveSearchPollStateDataSource.kt:33 | id lists with the same members store the same thing |
| PollWorker.AddedIds | app/src/main/java/com/example/photos101/worker/PhotosPollWorker.kt:56 | the added ids are exactly the fetched ids outside the previous set, each as many times as it was fetched |
| PollWorker.DoWork | app/src/main/java/com/example/photos101/worker/PhotosPollWorker.kt:34-70 | no snapshot, a blank query or no ids means success with no fetch, notification or write; otherwise page 1 of 30 for the query is fetched; failure means retry with nothing else; success notifies iff some fetched id is new, with the added count, and always rewrites the snapshot with the fetched ids |
| PollWorker.AddedNonEmpty | app/src/main/java/com/example/photos101/worker/PhotosPollWorker.kt:56-58 | the added list is non-empty iff some fetched photo's id is not in the previous set |
| PollWorker.PollCycle | app/src/main/java/com/example/photos101/worker/PhotosPollWorker.kt:36-63 | a run leaves the store alone unless it writes, and after a write the store reads back the written query and ids |
| PollWorker.FilterIn | app/src/main/java/com/example/photos101/worker/PhotosPollWorker.kt:55-56 | the fetched ids that were known are exactly those in the previous set, each as many times as it was fetched |
| PollWorker.AddedIdsCount | app/src/main/java/com/example/photos101/worker/PhotosPollWorker.kt:56-60 | the fetched ids are, as a multiset, the added ones plus the known ones, so the notified count is the number of fetched ids minus the known ones, repeats included |
| PollWorker.ReorderOrRemovalIsSilent | app/src/main/java/com/example/photos101/worker/PhotosPollWorker.kt:55-58 | a page that only reorders or drops known ids notifies nothing |
| PollWorker.SecondRunIsSilent | app/src/main/java/com/example/photos101/worker/PhotosPollWorker.kt:55-62 | a second run against the same page notifies nothing and leaves the store unchanged |
| PollWorker.AddedIdsOfSubset | app/src/main/java/com/example/photos101/worker/PhotosPollWorker.kt:56 | no id is added when every fetched id is known |
| PollWorker.FailureWritesNothing | app/src/main/java/com/example/photos101/worker/PhotosPollWorker.kt:65-68 | a failed fetch never writes or notifies, and retries iff the run polled |
| PollWorker.EmptyPageStopsPolling | app/src/main/java/com/example/photos101/worker/PhotosPollWorker.kt:40-42 | after an empty first page is written, later runs skip without fetching or writing |
| SyncProperties.ClearSearchStopsPolling | app/src/main/java/com/example/photos101/ui/photoslist/PhotosListViewModel.kt:50-55 | after ClearSearch's effects the store has no snapshot, and the next poll run does nothing |
| SyncProperties.CancelPollingClearsStore | app/src/main/java/com/example/photos101/ui/photoslist/PhotosListViewModel.kt:50-55 | `cancelPolling` cancels the unique work "photos_poll" and leaves the store with no snapshot |
| SyncProperties.PersistThenSchedule | app/src/main/java/com/example/photos101/ui/photoslist/PhotosListViewModel.kt:154-170 | `persistAndSchedulePolling` leaves the store holding the query and the set of the ids, and enqueues "photos_poll" with REPLACE after the save |
| SyncProperties.IdsToSet | app/src/main/java/com/example/photos101/worker/PhotosPollWorker.kt:54-55 | the set of a page's ids is its id set |
| SyncProperties.ShownSearchIsPolledSilently | app/src/main/java/com/example/photos101/ui/photoslist/PhotosListViewModel.kt:205-209 | a shown search page of up to 30 photos is stored with its query and ids; the next poll asks page 1 of 30 for that query and, on the same page, notifies nothing |
| Grid.ThumbnailUrlOrBuilt | app/src/main/java/com/example/photos101/ui/photoslist/PhotosGrid.kt:40-41 | a present thumbnail URL is used unchanged, otherwise the 's' static URL of server, id and secret |
| Grid.ShouldLoadMore | app/src/main/java/com/example/photos101/ui/photoslist/PhotosGrid.kt:85-89 | firing needs more pages, no load in progress and a non-empty grid, with the last visible index (0 when none is visible) within 5 of the end |
| Grid.LoadMoreNeverFires | app/src/main/java/com/example/photos101/ui/photoslist/PhotosGrid.kt:85-88 | no load-more when no page is left, one is loading, or the grid is empty |
| Grid.LoadMoreFiresNearEnd | app/src/main/java/com/example/photos101/ui/photoslist/PhotosGrid.kt:86-89 | for a non-empty grid with more pages and nothing loading, it fires iff the last visible index is within 5 of the end, the index counting as 0 when nothing is visible |
| Grid.GridFiringStartsNextPage | app/src/main/java/com/example/photos101/ui/photoslist/PhotosGrid.kt:82-90 | when the grid fires for the state shown, LoadNextPage requests the next page of that feed and marks the state loading more |
| Grid.NoSecondRequestWhileLoading | app/src/main/java/com/example/photos101/ui/photoslist/PhotosGrid.kt:82-85 | once a next page is requested the grid cannot fire again until it arrives |
| Grid.BuiltThumbnailSegments | app/src/main/java/com/example/photos101/ui/photoslist/PhotosGrid.kt:41 | a built thumbnail URL splits back into server and `{id}_{secret}_s.jpg` |
| DetailViewModel.LoadDetail | app/src/main/java/com/example/photos101/ui/photodetail/PhotoDetailViewModel.kt:27-34 | a blank id is an error "Missing photo ID" at once with no fetch; any other id shows Loading and fetches that id with the secret |
| DetailViewModel.CompleteDetail | app/src/main/java/com/example/photos101/ui/photodetail/PhotoDetailViewModel.kt:35-40 | success shows the detail and failure shows its error |
| DetailViewModel.DetailScreenOutcome | app/src/main/java/com/example/photos101/ui/photodetail/PhotoDetailViewModel.kt:20-42 | from creation, a blank id stays an error; otherwise the screen shows the mapped photo iff Flickr answered "ok" with a photo, and the translated exception when the call threw |
| Routes.PhotoDetailRoute | app/src/main/java/com/example/photos101/ui/navigation/Routes.kt:4-8 | the route starts with "photo_detail/", is exactly as long as its parts plus the separator, and is never the list destination "photos_list" nor starts with it |
| Routes.JoinThree | app/src/main/java/com/example/photos101/ui/navigation/Routes.kt:8 | three segments joined with '/' read as the route string |
| Routes.TemplateSegments | app/src/main/java/com/example/photos101/ui/navigation/Routes.kt:5 | the detail template is "photo_detail" and the two placeholders |
| Routes.BindTemplateSegments | app/src/main/java/com/example/photos101/ui/navigation/Routes.kt:5 | binding the template puts the id and secret in place of the placeholders |
| Routes.RouteFillsTemplate | app/src/main/java/com/example/photos101/ui/navigation/Routes.kt:5-8 | the built route is the detail template with both placeholders filled in |
| Routes.RouteSplitsBack | app/src/main/java/com/example/photos101/ui/navigation/Routes.kt:8 | without '/' in the arguments, the route splits back into "photo_detail", the id and the secret |

## Left out

- Compose UI and layout (the screens, the grid composables, `MainActivity` navigation and permission wiring). This is rendering and framework callbacks.
- Koin dependency injection, the application class and the one-line use-case wrappers. This is wiring with no logic.
- The HTTP layer (Retrofit `FlickrApi`, OkHttp, the API key interceptor). The HTTP call's outcome is an input (`Repository.ApiCall`): a decoded DTO or the exception it threw. JSON decoding is not modelled.
- DataStore, WorkManager and the notification manager are not modelled as such:
  - the store is a pure two-key register;
  - scheduling and cancelling work are emitted effects;
  - the notification is only its count.
  Building the notification channel and text is not modelled.
- Coroutine scheduling and the 400 ms delay. The debounce is a slot whose firing is an explicit event, with no wall-clock time.
- The order in which separately launched coroutines run. The snapshot save inside `persistAndSchedulePolling` and the clear inside `cancelPolling` run in coroutines of their own. A save launched earlier can in principle land after a later clear. The model applies effects in the order they are emitted.
- The poll interval. The comments say 15 minutes and the constant says 1 minute; the worker is modelled per run, so the interval does not matter.
- `runPollWorkerOnceForTesting`, a test hook.
- Event delivery through the `SharedFlow` (its buffer of one). `OpenPhoto` emits `NavigateToDetail` as an effect.
- Text.ToIntOrNull: accepts ASCII digits only. The JVM's `Character.digit` also accepts other Unicode decimal digits.
- ListViewModel.NextPage: `currentPage + 1` is unbounded, so the 32-bit overflow at `Int.MAX_VALUE` is not modelled. No Flickr page number comes near it.
- ListProperties.RunPreservesValid: assumes that each fetched page itself repeats no photo id. A replace load installs the page as it came, without `distinctBy`, so the code does not guarantee this.
- The detail description: `PhotoDetail` declares no field for it, so it is computed by `Mapper.DetailDescription` and not stored in `PhotoDetail`.

=== FILE: detail_view_model.dfy ===
/**
 * `PhotoDetailViewModel`: the detail screen's state while one photo's
 * details load. As with the list, a load is a begin step that may request a
 * fetch and a completion step that receives the fetch's result.
 */
module DetailViewModel {
  import opened Wrappers
  import opened Results
  import opened Text
  import opened Dto
  import opened Domain
  import opened Mapper
  import opened Repository

  datatype PhotoDetailState = Loading | Success(detail: PhotoDetail) | Error(throwable: Throwable)

  /** The message of the error a blank photo id produces. */
  const MissingPhotoId: string := "Missing photo ID"

  /** The `getPhotoInfo` call a load makes. */
  datatype InfoRequest = InfoRequest(photoId: string, secret: Option<string>)

  /** What beginning a load does: the new state and the fetch it starts, if any. */
  datatype DetailBegin = DetailBegin(state: PhotoDetailState, request: Option<InfoRequest>)

  /** The state the view model starts in, before `init` runs `loadDetail`. */
  const InitialState: PhotoDetailState := Loading

  /**
   * `loadDetail`, up to the fetch: a blank photo id is an error at once and
   * nothing is fetched; any other id shows `Loading` and fetches that photo's
   * info with the given secret.
   */
  function LoadDetail(photoId: string, secret: Option<string>): (r: DetailBegin)
    ensures IsBlank(photoId) <==> r.request.None?
    ensures IsBlank(photoId) ==> r.state == Error(IllegalArgumentException(MissingPhotoId))
    ensures !IsBlank(photoId) ==> r.state == Loading && r.request == Some(InfoRequest(photoId, secret))
  {
    if IsBlank(photoId) then DetailBegin(Error(IllegalArgumentException(MissingPhotoId)), None)
    else DetailBegin(Loading, Some(InfoRequest(photoId, secret)))
  }

  /** The fetch's result becomes the state: the details on success, the error on failure. */
  function CompleteDetail(result: KResult<PhotoDetail>): (s: PhotoDetailState)
    ensures s.Success? <==> result.Success?
    ensures result.Success? ==> s.detail == result.value
    ensures result.Failure? ==> s == Error(result.error)
  {
    match result
    case Success(d) => PhotoDetailState.Success(d)
    case Failure(t) => PhotoDetailState.Error(t)
  }

  /**
   * The screen from creation to the fetch's answer, with the HTTP call's
   * outcome as input: a blank id never leaves the error; otherwise the screen
   * shows the mapped photo exactly when Flickr answered "ok" with a photo,
   * and an error carrying the Flickr code or the translated exception otherwise.
   */
  lemma DetailScreenOutcome(photoId: string, secret: Option<string>, call: ApiCall<PhotoInfoResponseDto>)
    ensures var begin := LoadDetail(photoId, secret);
      var final := if begin.request.None? then begin.state else CompleteDetail(FetchPhotoInfo(call));
      && (IsBlank(photoId) ==> final.Error? && final.throwable.IllegalArgumentException?)
      && (!IsBlank(photoId) ==>
            && (final.Success? <==> call.Responded? && call.body.stat == StatOk && call.body.photo.Some?)
            && (final.Success? ==> final.detail == ToDetailDomain(call.body.photo.value))
            && (call.Threw? ==> final == Error(TranslateException(call.error))))
  {
  }
}

=== FILE: domain.dfy ===
/**
 * The domain records (a list photo, a page of results, a photo's details)
 * and the id-based views of a photo list: its ids, its id set, and
 * `distinctBy { it.id }`, which keeps the first photo seen for every id.
 */
module Domain {
  import opened Wrappers

  datatype Photo = Photo(
    id: string,
    title: string,
    ownerName: string,
    dateTaken: Option<string>,
    thumbnailUrl: Option<string>,
    secret: string,
    server: string)

  /** One page of a recent or search listing. */
  datatype PagedResult = PagedResult(items: seq<Photo>, page: int, totalPages: int, totalCount: int)

  /** The five fields `PhotoDetail` declares. */
  datatype PhotoDetail = PhotoDetail(
    id: string,
    title: string,
    ownerName: string,
    dateTaken: Option<string>,
    largeImageUrl: Option<string>)

  /** `items.map { it.id }`. */
  function Ids(items: seq<Photo>): (ids: seq<string>)
    ensures |ids| == |items|
    ensures forall i :: 0 <= i < |items| ==> ids[i] == items[i].id
  {
    seq(|items|, i requires 0 <= i < |items| => items[i].id)
  }

  function IdSet(items: seq<Photo>): set<string> {
    set p | p in items :: p.id
  }

  /** No two photos of the list share an id. */
  predicate DistinctIds(items: seq<Photo>) {
    forall i, j :: 0 <= i < j < |items| ==> items[i].id != items[j].id
  }

  lemma IdSetCons(p: Photo, rest: seq<Photo>)
    ensures IdSet([p] + rest) == {p.id} + IdSet(rest)
  {
    var s := [p] + rest;
    forall x | x in IdSet(s) ensures x in {p.id} + IdSet(rest) {
      var q :| q in s && q.id == x;
      if q != p { assert q in rest; }
    }
    forall x | x in {p.id} + IdSet(rest) ensures x in IdSet(s) {
      if x != p.id {
        var q :| q in rest && q.id == x;
        assert q in s;
      } else {
        assert p in s;
      }
    }
  }

  lemma IdSetAppend(a: seq<Photo>, b: seq<Photo>)
    ensures IdSet(a + b) == IdSet(a) + IdSet(b)
  {
    var s := a + b;
    forall x | x in IdSet(s) ensures x in IdSet(a) + IdSet(b) {
      var q :| q in s && q.id == x;
      if q in a {} else { assert q in b; }
    }
    forall x | x in IdSet(a) + IdSet(b) ensures x in IdSet(s) {
      if x in IdSet(a) {
        var q :| q in a && q.id == x;
        assert q in s;
      } else {
        var q :| q in b && q.id == x;
        assert q in s;
      }
    }
  }

  /**
   * `distinctBy { it.id }` continued after the ids in `seen` have already been
   * met: walks the list front to back and keeps a photo only when its id is new.
   */
  function DistinctByIdFrom(items: seq<Photo>, seen: set<string>): (r: seq<Photo>)
    ensures DistinctIds(r)
    ensures IdSet(r) == IdSet(items) - seen
    ensures forall p :: p in r ==> p in items
    decreases |items|
  {
    if items == [] then []
    else
      assert items == [items[0]] + items[1..];
      IdSetCons(items[0], items[1..]);
      if items[0].id in seen then DistinctByIdFrom(items[1..], seen)
      else
        var rest := DistinctByIdFrom(items[1..], seen + {items[0].id});
        IdSetCons(items[0], rest);
        assert forall j :: 0 <= j < |rest| ==> rest[j].id in IdSet(rest);
        [items[0]] + rest
  }

  /**
   * `idx` places `r` inside `items` in order: `r[k]` is `items[idx[k]]`, and
   * the positions strictly increase, so `r` is a subsequence of `items`.
   */
  predicate Embeds(idx: seq<nat>, r: seq<Photo>, items: seq<Photo>) {
    && |idx| == |r|
    && (forall k :: 0 <= k < |idx| ==> idx[k] < |items| && r[k] == items[idx[k]])
    && (forall k, l :: 0 <= k < l < |idx| ==> idx[k] < idx[l])
  }

  /** Every position moved one place on. */
  function Shift(idx: seq<nat>): (r: seq<nat>)
    ensures |r| == |idx|
    ensures forall k :: 0 <= k < |idx| ==> r[k] == idx[k] + 1
  {
    seq(|idx|, k requires 0 <= k < |idx| => idx[k] + 1)
  }

  /** The positions in `items` of the photos `distinctBy` keeps, front to back. */
  function KeptIndices(items: seq<Photo>, seen: set<string>): (idx: seq<nat>)
    ensures Embeds(idx, DistinctByIdFrom(items, seen), items)
    decreases |items|
  {
    if items == [] then []
    else
      var tail := items[1..];
      var seen' := if items[0].id in seen then seen else seen + {items[0].id};
      var rest := KeptIndices(tail, seen');
      ShiftEmbeds(rest, DistinctByIdFrom(tail, seen'), items);
      if items[0].id in seen then Shift(rest) else [0] + Shift(rest)
  }

  /** Positions in the tail of a list, moved one place on, are positions in the list. */
  lemma ShiftEmbeds(idx: seq<nat>, r: seq<Photo>, items: seq<Photo>)
    requires items != [] && Embeds(idx, r, items[1..])
    ensures Embeds(Shift(idx), r, items)
    ensures Embeds([0] + Shift(idx), [items[0]] + r, items)
  {
    var sh := Shift(idx);
    assert forall k :: 0 <= k < |sh| ==> items[sh[k]] == items[1..][idx[k]];
  }

  /**
   * `distinctBy { it.id }` keeps the photos in the order they came: the
   * result is a subsequence of the input.
   */
  lemma DistinctKeepsOrder(items: seq<Photo>, seen: set<string>)
    ensures exists idx :: Embeds(idx, DistinctByIdFrom(items, seen), items)
  {
    var idx := KeptIndices(items, seen);
  }

  /** `items.distinctBy { it.id }`. */
  function DistinctById(items: seq<Photo>): seq<Photo> {
    DistinctByIdFrom(items, {})
  }

  /**
   * The first photo carrying each new id is the one kept: a photo whose id was
   * neither seen before nor used earlier in the list is in the result.
   */
  lemma {:induction false} DistinctKeepsFirst(items: seq<Photo>, seen: set<string>, i: nat)
    requires i < |items|
    requires items[i].id !in seen && items[i].id !in IdSet(items[..i])
    ensures items[i] in DistinctByIdFrom(items, seen)
    decreases i
  {
    assert items == [items[0]] + items[1..];
    if i > 0 {
      var tail := items[1..];
      assert items[..i] == [items[0]] + tail[..i - 1];
      IdSetCons(items[0], tail[..i - 1]);
      assert tail[i - 1] == items[i];
      if items[0].id in seen {
        DistinctKeepsFirst(tail, seen, i - 1);
      } else {
        DistinctKeepsFirst(tail, seen + {items[0].id}, i - 1);
      }
    }
  }

  /**
   * Appending to a list that already has distinct ids keeps that list as a
   * prefix; only photos with ids new to it are added after it.
   */
  lemma {:induction false} DistinctAppend(a: seq<Photo>, b: seq<Photo>, seen: set<string>)
    requires DistinctIds(a) && IdSet(a) !! seen
    ensures DistinctByIdFrom(a + b, seen) == a + DistinctByIdFrom(b, seen + IdSet(a))
    decreases |a|
  {
    if a == [] {
      assert a + b == b;
      assert IdSet(a) == {};
      assert seen + IdSet(a) == seen;
    } else {
      var tail := a[1..];
      assert a == [a[0]] + tail;
      IdSetCons(a[0], tail);
      assert a[0].id !in IdSet(tail);
      assert (a + b)[0] == a[0];
      assert (a + b)[1..] == tail + b;
      DistinctAppend(tail, b, seen + {a[0].id});
      assert seen + {a[0].id} + IdSet(tail) == seen + IdSet(a);
    }
  }

  /** Deduplicating a list with distinct ids followed by more photos keeps that list in front. */
  lemma DistinctPrefix(a: seq<Photo>, b: seq<Photo>)
    ensures DistinctIds(a) ==> a <= DistinctById(a + b)
  {
    if DistinctIds(a) {
      DistinctAppend(a, b, {});
    }
  }

  /** A list whose ids are already distinct is unchanged by `distinctBy { it.id }`. */
  lemma DistinctByIdOfDistinct(a: seq<Photo>)
    requires DistinctIds(a)
    ensures DistinctById(a) == a
  {
    DistinctAppend(a, [], {});
    assert a + [] == a;
  }
}

=== FILE: dto.dfy ===
/**
 * The Flickr JSON responses as the serializer hands them to the repository.
 * Defaults are those the serializer fills in for a missing JSON key.
 */
module Dto {
  import opened Wrappers

  /** One photo of a `flickr.photos.getRecent` / `flickr.photos.search` page. */
  datatype PhotoDto = PhotoDto(
    id: string,
    owner: string := "",
    secret: string := "",
    server: string := "",
    title: string := "",
    urlS: Option<string> := None,
    ownerName: Option<string> := None,
    dateTaken: Option<string> := None)

  /** The `photos` object of a list response; Flickr may send `total` as a string. */
  datatype PhotosWrapperDto = PhotosWrapperDto(
    page: int := 1,
    pages: int := 1,
    perpage: int := 0,
    totalRaw: string := "0",
    photo: seq<PhotoDto> := [])

  /** The root of a list response. */
  datatype PhotosResponseDto = PhotosResponseDto(
    stat: string := "ok",
    photos: Option<PhotosWrapperDto> := None,
    code: Option<int> := None,
    message: Option<string> := None)

  datatype PhotoOwnerDto = PhotoOwnerDto(nsid: string := "", username: string := "")

  /** Flickr's `{"_content": ...}` text wrapper. */
  datatype ContentWrapperDto = ContentWrapperDto(content: string := "")

  datatype PhotoDatesDto = PhotoDatesDto(taken: Option<string> := None)

  /** The `photo` object of a `flickr.photos.getInfo` response. */
  datatype PhotoInfoDto = PhotoInfoDto(
    id: string,
    secret: string := "",
    server: string := "",
    owner: Option<PhotoOwnerDto> := None,
    title: Option<ContentWrapperDto> := None,
    description: Option<ContentWrapperDto> := None,
    dates: Option<PhotoDatesDto> := None)

  /** The root of a `flickr.photos.getInfo` response. */
  datatype PhotoInfoResponseDto = PhotoInfoResponseDto(
    stat: string := "ok",
    photo: Option<PhotoInfoDto> := None,
    code: Option<int> := None,
    message: Option<string> := None)
}

=== FILE: grid.dfy ===
/**
 * The two pieces of logic in the photo grid: the thumbnail URL it shows for
 * a photo, and the endless-scroll condition under which it asks the view
 * model for the next page. The composables themselves are not modelled.
 */
module Grid {
  import opened Wrappers
  import opened Text
  import opened Domain
  import opened ImageUrls
  import opened ListState
  import opened ListViewModel

  /** `LOAD_MORE_THRESHOLD`: how close to the end the last visible cell must be. */
  const LoadMoreThreshold: int := 5

  /**
   * `thumbnailUrlOrBuilt`: the photo's own thumbnail URL when it has one,
   * otherwise the static URL of its small ('s') image.
   */
  function ThumbnailUrlOrBuilt(p: Photo): (url: string)
    ensures p.thumbnailUrl.Some? ==> url == p.thumbnailUrl.value
    ensures p.thumbnailUrl.None? ==> url == StaticImageUrl(p.server, p.id, p.secret, 's')
  {
    p.thumbnailUrl.GetOr(StaticImageUrl(p.server, p.id, p.secret, 's'))
  }

  /**
   * The check run on every layout change: nothing when there are no further
   * pages or a page is already loading; otherwise fire when the grid has
   * cells and the last visible one (the first cell when none is visible) is
   * among the last `LoadMoreThreshold` cells.
   */
  function ShouldLoadMore(hasMore: bool, isLoadingMore: bool, totalItems: int, lastVisibleIndex: Option<int>): (fire: bool)
    ensures fire ==> hasMore && !isLoadingMore && totalItems > 0
    ensures fire && lastVisibleIndex.Some? ==> totalItems - lastVisibleIndex.value <= LoadMoreThreshold
    ensures fire && lastVisibleIndex.None? ==> totalItems <= LoadMoreThreshold
  {
    if !hasMore || isLoadingMore then false
    else
      var last := lastVisibleIndex.GetOr(0);
      totalItems > 0 && last >= totalItems - LoadMoreThreshold
  }

  /** The grid never asks for more while a page loads, when no page is left, or when it is empty. */
  lemma LoadMoreNeverFires(hasMore: bool, isLoadingMore: bool, totalItems: int, lastVisibleIndex: Option<int>)
    requires !hasMore || isLoadingMore || totalItems <= 0
    ensures !ShouldLoadMore(hasMore, isLoadingMore, totalItems, lastVisibleIndex)
  {
  }

  /**
   * With more pages and nothing loading, the grid fires exactly when the last
   * visible index reaches the final `LoadMoreThreshold` cells; with nothing
   * visible that is exactly when the grid holds at most that many cells.
   */
  lemma LoadMoreFiresNearEnd(totalItems: int, lastVisibleIndex: Option<int>)
    requires totalItems > 0
    ensures lastVisibleIndex.Some? ==>
      (ShouldLoadMore(true, false, totalItems, lastVisibleIndex) <==> lastVisibleIndex.value >= totalItems - 5)
    ensures lastVisibleIndex.None? ==>
      (ShouldLoadMore(true, false, totalItems, lastVisibleIndex) <==> totalItems <= 5)
  {
  }

  /** The condition as the grid evaluates it for a results state: its flags and its photo count. */
  predicate StateLoadsMore(s: PhotosListState, lastVisibleIndex: Option<int>)
    requires s.ShowsResults()
  {
    ShouldLoadMore(s.HasMore(), s.isLoadingMore, |s.items|, lastVisibleIndex)
  }

  /**
   * When the grid fires for the state the view model shows, `LoadNextPage`
   * really starts a fetch: page `currentPage + 1` of the feed on screen, as
   * an append, with the state marked as loading more. (A search state always
   * carries a non-blank query in a reachable view model.)
   */
  lemma GridFiringStartsNextPage(vm: ListVm, lastVisibleIndex: Option<int>)
    requires vm.state.ShowsResults() && StateLoadsMore(vm.state, lastVisibleIndex)
    requires vm.state.SearchResults? ==> !IsBlank(vm.state.searchQuery)
    ensures var r := Dispatch(vm, LoadNextPage);
      && r.effects == [StartFetch(Load(vm.nextTicket, FeedOf(vm.state), vm.state.currentPage + 1, PageSize, false))]
      && r.vm.state.ShowsResults() && r.vm.state.isLoadingMore
      && r.vm.state.items == vm.state.items
  {
  }

  /**
   * Once a next page is requested the grid stops firing until the page
   * arrives, so scrolling cannot request the same page twice.
   */
  lemma NoSecondRequestWhileLoading(vm: ListVm, lastVisibleIndex: Option<int>, again: Option<int>)
    requires NextPageStarts(vm.state)
    ensures var s := Dispatch(vm, LoadNextPage).vm.state;
      s.ShowsResults() && !StateLoadsMore(s, again)
  {
  }

  /**
   * A built thumbnail URL splits on '/' back into the host, the server and
   * the file name `{id}_{secret}_s.jpg` when none of the parts holds a '/'.
   */
  lemma BuiltThumbnailSegments(p: Photo)
    requires p.thumbnailUrl.None?
    requires '/' !in p.server && '/' !in p.id && '/' !in p.secret
    ensures Split(ThumbnailUrlOrBuilt(p), '/') == ["https:", "", "live.staticflickr.com", p.server, ImageFileName(p.id, p.secret, 's')]
  {
    StaticImageUrlSegments(p.server, p.id, p.secret, 's');
  }
}

=== FILE: image_urls.dfy ===
/**
 * Flickr static image URLs, built the same way by the list thumbnail
 * (size suffix 's') and by the detail mapper (size suffix 'z').
 */
module ImageUrls {
  import opened Text

  const StaticHost: string := "https://live.staticflickr.com/"

  /** The file name part of a static image URL: `{id}_{secret}_{size}.jpg`. */
  function ImageFileName(id: string, secret: string, size: char): string {
    id + "_" + secret + "_" + [size] + ".jpg"
  }

  /** `https://live.staticflickr.com/{server}/{id}_{secret}_{size}.jpg` */
  function StaticImageUrl(server: string, id: string, secret: string, size: char): string {
    StaticHost + server + "/" + ImageFileName(id, secret, size)
  }

  /** The URL is its path segments joined with '/'. */
  lemma StaticImageUrlJoin(server: string, name: string)
    ensures Join(["https:", "", "live.staticflickr.com", server, name], '/') == StaticHost + server + "/" + name
  {
    var parts := ["https:", "", "live.staticflickr.com", server, name];
    var t := server + "/" + name;
    assert Join(parts[3..], '/') == t;
    assert Join(parts[2..], '/') == "live.staticflickr.com" + "/" + t;
    assert Join(parts[1..], '/') == "" + "/" + ("live.staticflickr.com" + "/" + t);
    assert Join(parts, '/') == "https:" + "/" + ("" + "/" + ("live.staticflickr.com" + "/" + t));
    assert "https:" + "/" + ("" + "/" + ("live.staticflickr.com" + "/" + t))
        == ("https:" + "/" + "" + "/" + "live.staticflickr.com" + "/") + t;
    assert "https:" + "/" + "" + "/" + "live.staticflickr.com" + "/" == StaticHost;
    assert StaticHost + server + "/" + name == StaticHost + t;
  }

  /**
   * When server, id and secret hold no '/', the URL's path segments are
   * exactly the host, the server and the file name: the URL can be taken
   * apart again into the parts it was built from.
   */
  lemma StaticImageUrlSegments(server: string, id: string, secret: string, size: char)
    requires '/' !in server && '/' !in id && '/' !in secret && size != '/'
    ensures Split(StaticImageUrl(server, id, secret, size), '/')
         == ["https:", "", "live.staticflickr.com", server, ImageFileName(id, secret, size)]
  {
    var name := ImageFileName(id, secret, size);
    assert '/' !in name;
    StaticImageUrlJoin(server, name);
    SplitJoin(["https:", "", "live.staticflickr.com", server, name], '/');
  }
}

=== FILE: list_properties.dfy ===
/**
 * What the list view model guarantees: about one completed load, about the
 * debounce slot, and about any interleaving of actions, timer firings and
 * fetch results.
 */
module ListProperties {
  import opened Wrappers
  import opened Results
  import opened Text
  import opened Domain
  import opened ListState
  import opened ListViewModel

  /** The query a replace load shows in `Loading`, `Error` and `Empty`: none for the recent feed. */
  function QueryOfFeed(feed: Feed): Option<string> {
    match feed
    case RecentFeed => None
    case SearchFeed(q) => Some(q)
  }

  // ---------------------------------------------------------------------------
  // One completed load
  // ---------------------------------------------------------------------------

  /**
   * A successful append merges: the photos already shown stay in front and in
   * order, only photos with new ids follow, no id repeats, the page numbers
   * come from the result, and loading more is over. (A search append merges
   * only while its results are loading more; `AppendMergesWhenValid` states
   * the same for every view model satisfying the invariant.)
   */
  lemma AppendSuccessMerges(vm: ListVm, ticket: nat, page: PagedResult)
    requires ticket in vm.inFlight && !vm.inFlight[ticket].replace
    requires vm.state.ShowsResults() && FeedOf(vm.state) == vm.inFlight[ticket].feed
    requires vm.state.SearchResults? ==> vm.state.isLoadingMore
    requires DistinctIds(vm.state.items) && vm.state.items != []
    ensures var r := Complete(vm, ticket, Success(page));
      var s := r.vm.state;
      && r.effects == []
      && s.ShowsResults() && FeedOf(s) == FeedOf(vm.state)
      && s.items == DistinctById(vm.state.items + page.items)
      && vm.state.items <= s.items
      && s.items == vm.state.items + DistinctByIdFrom(page.items, IdSet(vm.state.items))
      && DistinctIds(s.items)
      && IdSet(s.items) == IdSet(vm.state.items) + IdSet(page.items)
      && s.currentPage == page.page && s.totalPages == page.totalPages
      && !s.isLoadingMore
      && (s.HasMore() <==> page.page < page.totalPages)
  {
    var old_ := vm.state.items;
    DistinctAppend(old_, page.items, {});
    assert {} + IdSet(old_) == IdSet(old_);
    IdSetAppend(old_, page.items);
  }

  /** The merge, for a view model that satisfies the invariant. */
  lemma AppendMergesWhenValid(vm: ListVm, ticket: nat, page: PagedResult)
    requires Valid(vm)
    requires ticket in vm.inFlight && !vm.inFlight[ticket].replace
    requires vm.state.ShowsResults() && FeedOf(vm.state) == vm.inFlight[ticket].feed
    requires vm.state.SearchResults? ==> vm.state.isLoadingMore
    ensures var s := Complete(vm, ticket, Success(page)).vm.state;
      && s.ShowsResults() && vm.state.items <= s.items && DistinctIds(s.items)
      && IdSet(s.items) == IdSet(vm.state.items) + IdSet(page.items)
  {
    AppendSuccessMerges(vm, ticket, page);
  }

  /**
   * A failed append never discards results: the photos, the page numbers and
   * the feed stay as they were, and only `isLoadingMore` goes back to false.
   */
  lemma AppendFailureKeepsResults(vm: ListVm, ticket: nat, t: Throwable)
    requires ticket in vm.inFlight && !vm.inFlight[ticket].replace
    requires vm.state.ShowsResults() && FeedOf(vm.state) == vm.inFlight[ticket].feed
    ensures var r := Complete(vm, ticket, Failure(t));
      && r.effects == []
      && r.vm.state == vm.state.WithLoadingMore(false)
      && r.vm.state.items == vm.state.items
      && r.vm.state.currentPage == vm.state.currentPage && r.vm.state.totalPages == vm.state.totalPages
      && FeedOf(r.vm.state) == FeedOf(vm.state)
  {
  }

  /**
   * A replace load ends in `Empty` for its feed when the page has no photos,
   * in a fresh results state showing exactly the page otherwise, and in
   * `Error` for its feed whenever the fetch failed, whatever was shown before.
   */
  lemma ReplaceOutcome(vm: ListVm, ticket: nat, result: KResult<PagedResult>)
    requires ticket in vm.inFlight && vm.inFlight[ticket].replace
    ensures var feed := vm.inFlight[ticket].feed;
      var s := Complete(vm, ticket, result).vm.state;
      && (result.Failure? ==> s == Error(result.error, QueryOfFeed(feed)))
      && (result.Success? && result.value.items == [] ==> s == Empty(QueryOfFeed(feed)))
      && (result.Success? && result.value.items != [] ==>
            && s.ShowsResults() && FeedOf(s) == feed
            && s.items == result.value.items && !s.isLoadingMore
            && s.currentPage == result.value.page && s.totalPages == result.value.totalPages)
  {
  }

  /**
   * A search page installed as a first page (a replace, or an append whose
   * guard no longer holds) that has photos saves its query with the ids of
   * its first 30 photos, in order, and re-enqueues the unique poll work with
   * REPLACE; an empty page saves nothing.
   */
  lemma SearchFirstPagePersists(vm: ListVm, ticket: nat, page: PagedResult)
    requires ticket in vm.inFlight && vm.inFlight[ticket].feed.SearchFeed?
    requires !MergesInto(vm.state, vm.inFlight[ticket].feed.query, vm.inFlight[ticket].replace)
    ensures var q := vm.inFlight[ticket].feed.query;
      var r := Complete(vm, ticket, Success(page));
      && (page.items == [] ==> r.effects == [] && r.vm.state == Empty(Some(q)))
      && (page.items != [] ==>
            && |r.effects| == 2
            && r.effects[1] == EnqueueUniquePeriodicWork(WorkName, ReplaceExisting)
            && r.effects[0].SavePollState? && r.effects[0].query == q
            && |r.effects[0].firstPageIds| == (if |page.items| < PageSize then |page.items| else PageSize)
            && forall i :: 0 <= i < |r.effects[0].firstPageIds| ==> r.effects[0].firstPageIds[i] == page.items[i].id)
  {
  }

  /**
   * An append whose stale-result guard fails (the screen no longer shows
   * this query's results loading more) is not merged. A page starts the
   * query over with exactly its photos, or `Empty` when it has none; a
   * failure is an `Error` for the query unless the query's own results are
   * still shown, which then only stop loading more.
   */
  lemma StaleSearchAppendStartsOver(vm: ListVm, ticket: nat, result: KResult<PagedResult>)
    requires ticket in vm.inFlight && vm.inFlight[ticket].feed.SearchFeed? && !vm.inFlight[ticket].replace
    requires !MergesInto(vm.state, vm.inFlight[ticket].feed.query, false)
    ensures var q := vm.inFlight[ticket].feed.query;
      var s := Complete(vm, ticket, result).vm.state;
      && (result.Success? && result.value.items == [] ==> s == Empty(Some(q)))
      && (result.Success? && result.value.items != [] ==>
            s == SearchResults(q, result.value.items, result.value.page, result.value.totalPages, false))
      && (result.Failure? && !(vm.state.SearchResults? && vm.state.searchQuery == q) ==> s == Error(result.error, Some(q)))
      && (result.Failure? && vm.state.SearchResults? && vm.state.searchQuery == q ==> s == vm.state.WithLoadingMore(false))
  {
  }

  /**
   * Only a search success installed as a non-empty first page has effects:
   * recent loads, merged appends, failures and stale results never touch the
   * poll snapshot or the scheduler.
   */
  lemma CompleteEffectsOnlyFromSearchFirstPage(vm: ListVm, ticket: nat, result: KResult<PagedResult>)
    requires Complete(vm, ticket, result).effects != []
    ensures ticket in vm.inFlight && vm.inFlight[ticket].feed.SearchFeed?
    ensures result.Success? && result.value.items != []
    ensures !MergesInto(vm.state, vm.inFlight[ticket].feed.query, vm.inFlight[ticket].replace)
  {
  }

  /**
   * Recent loads carry no stale-result guard: a recent page that arrives
   * after a search has already been shown replaces the search results.
   */
  lemma LateRecentResultOverwritesSearch(vm: ListVm, ticket: nat, page: PagedResult)
    requires ticket in vm.inFlight && vm.inFlight[ticket] == Load(ticket, RecentFeed, 1, PageSize, true)
    requires vm.state.SearchResults? && page.items != []
    ensures Complete(vm, ticket, Success(page)).vm.state == RecentPhotos(page.items, page.page, page.totalPages, false)
  {
  }

  // ---------------------------------------------------------------------------
  // The debounce slot
  // ---------------------------------------------------------------------------

  /**
   * A commit that already started its load is cancelled by the next keystroke:
   * that load's result, whenever it arrives, changes nothing.
   */
  lemma SupersededCommitDiscarded(vm: ListVm, next: string, result: KResult<PagedResult>)
    requires vm.debounce.Waiting?
    ensures var fired := Fire(vm);
      var typed := Dispatch(fired.vm, QueryChanged(next));
      && fired.effects[0].load.ticket == vm.nextTicket
      && vm.nextTicket !in typed.vm.inFlight
      && Complete(typed.vm, vm.nextTicket, result) == Step(typed.vm, [])
  {
  }

  /** `ClearSearch` cancels a load the debounce job started, just as a keystroke does. */
  lemma ClearSearchDiscardsCommittedLoad(vm: ListVm, result: KResult<PagedResult>)
    requires vm.debounce.Waiting?
    ensures var fired := Fire(vm);
      var cleared := Dispatch(fired.vm, ClearSearch);
      && vm.nextTicket !in cleared.vm.inFlight
      && Complete(cleared.vm, vm.nextTicket, result) == Step(cleared.vm, [])
  {
  }

  /** Loads started directly by `dispatch` are not part of the debounce job and survive typing. */
  lemma DispatchedLoadSurvivesTyping(vm: ListVm, ticket: nat, text: string)
    requires ticket in vm.inFlight && vm.debounce != Running(ticket)
    ensures var r := Dispatch(vm, QueryChanged(text));
      ticket in r.vm.inFlight && r.vm.inFlight[ticket] == vm.inFlight[ticket]
  {
  }

  // ---------------------------------------------------------------------------
  // Any interleaving
  // ---------------------------------------------------------------------------

  /** What can happen next: an action, the debounce delay elapsing, or a fetch result arriving. */
  datatype Event = Act(action: Action) | DebounceElapsed | Deliver(ticket: nat, result: KResult<PagedResult>)

  function Handle(vm: ListVm, e: Event): Step {
    match e
    case Act(a) => Dispatch(vm, a)
    case DebounceElapsed => Fire(vm)
    case Deliver(t, result) => Complete(vm, t, result)
  }

  /** Handling events in order with `handle`, collecting their effects in order. */
  function RunWith(handle: (ListVm, Event) -> Step, vm: ListVm, events: seq<Event>): Step
    decreases |events|
  {
    if events == [] then Step(vm, [])
    else
      var s := handle(vm, events[0]);
      var rest := RunWith(handle, s.vm, events[1..]);
      Step(rest.vm, s.effects + rest.effects)
  }

  /** The view model handling events in order. */
  function Run(vm: ListVm, events: seq<Event>): Step {
    RunWith(Handle, vm, events)
  }

  /** Running two traces one after the other is running their concatenation. */
  lemma {:induction false} RunWithAppend(handle: (ListVm, Event) -> Step, vm: ListVm, a: seq<Event>, b: seq<Event>)
    ensures var s1 := RunWith(handle, vm, a);
      var s2 := RunWith(handle, s1.vm, b);
      RunWith(handle, vm, a + b) == Step(s2.vm, s1.effects + s2.effects)
    decreases |a|
  {
    if a != [] {
      var h := handle(vm, a[0]);
      assert (a + b)[0] == a[0];
      assert (a + b)[1..] == a[1..] + b;
      RunWithAppend(handle, h.vm, a[1..], b);
      var r1 := RunWith(handle, h.vm, a[1..]);
      var r2 := RunWith(handle, r1.vm, b);
      assert h.effects + (r1.effects + r2.effects) == (h.effects + r1.effects) + r2.effects;
    } else {
      assert a + b == b;
    }
  }

  /** Typing each text in turn, with no pause long enough for the debounce to fire. */
  function Typing(texts: seq<string>): (events: seq<Event>)
    ensures |events| == |texts|
    ensures forall i :: 0 <= i < |texts| ==> events[i] == Act(QueryChanged(texts[i]))
  {
    seq(|texts|, i requires 0 <= i < |texts| => Act(QueryChanged(texts[i])))
  }

  lemma {:induction false} TypingOnlyWaits(vm: ListVm, texts: seq<string>)
    requires |texts| > 0
    ensures var s := Run(vm, Typing(texts));
      && s.effects == []
      && s.vm.debounce == Waiting(texts[|texts| - 1])
      && s.vm.searchInput == texts[|texts| - 1]
      && s.vm.state == vm.state && s.vm.nextTicket == vm.nextTicket
    decreases |texts|
  {
    var events := Typing(texts);
    var h := Handle(vm, events[0]);
    assert h == Dispatch(vm, QueryChanged(texts[0]));
    assert events[1..] == Typing(texts[1..]);
    var rest := Run(h.vm, events[1..]);
    assert Run(vm, events) == Step(rest.vm, h.effects + rest.effects);
    if |texts| > 1 {
      TypingOnlyWaits(h.vm, texts[1..]);
    } else {
      assert rest == Step(h.vm, []);
    }
  }

  /**
   * However many keystrokes arrive within the quiet period, only the last
   * text is committed: exactly one page-1 replace load is requested, for the
   * feed that text selects.
   */
  lemma OnlyLastTextCommits(vm: ListVm, texts: seq<string>)
    requires |texts| > 0
    ensures var last := texts[|texts| - 1];
      Run(vm, Typing(texts) + [DebounceElapsed]).effects
        == [StartFetch(Load(vm.nextTicket, CommitFeed(last), 1, PageSize, true))]
  {
    TypingOnlyWaits(vm, texts);
    RunWithAppend(Handle, vm, Typing(texts), [DebounceElapsed]);
  }

  /** A search query is never blank where the state holds one. */
  predicate StateQueryValid(s: PhotosListState) {
    match s
    case SearchResults(q, _, _, _, _) => !IsBlank(q)
    case RecentPhotos(_, _, _, _) => true
    case _ => s.query.Some? ==> !IsBlank(s.query.value)
  }

  /** A live load is filed under its own ticket and never searches for blank text. */
  predicate LoadValid(t: nat, load: Load) {
    load.ticket == t && (load.feed.SearchFeed? ==> !IsBlank(load.feed.query))
  }

  /**
   * The invariant every reachable view model keeps: no photo id shown twice,
   * a results state never empty, no blank search query anywhere, tickets
   * fresh, and a waiting commit always for the text the search field shows.
   */
  predicate Valid(vm: ListVm) {
    && vm.state.ItemsDistinct()
    && (vm.state.ShowsResults() ==> vm.state.items != [])
    && StateQueryValid(vm.state)
    && (forall t :: t in vm.inFlight ==> t < vm.nextTicket && LoadValid(t, vm.inFlight[t]))
    && (vm.debounce.Waiting? ==> vm.debounce.text == vm.searchInput)
  }

  /** The fetched page itself repeats no id (the source of the replace-load precondition below). */
  predicate PageDistinct(e: Event) {
    e.Deliver? && e.result.Success? ==> DistinctIds(e.result.value.items)
  }

  lemma InitValid()
    ensures Valid(Init().vm)
  {
  }

  lemma CompletePreservesValid(vm: ListVm, ticket: nat, result: KResult<PagedResult>)
    requires Valid(vm)
    requires result.Success? ==> DistinctIds(result.value.items)
    ensures Valid(Complete(vm, ticket, result).vm)
  {
  }

  lemma HandlePreservesValid(vm: ListVm, e: Event)
    requires Valid(vm) && PageDistinct(e)
    ensures Valid(Handle(vm, e).vm)
  {
    match e
    case Act(a) => {}
    case DebounceElapsed => {}
    case Deliver(t, result) => CompletePreservesValid(vm, t, result);
  }

  /**
   * Through any interleaving of actions, debounce firings and fetch results
   * (delivered in any order, stale or not), the invariant holds, so the list
   * on screen never shows a photo id twice, provided each fetched page does not
   * itself repeat an id (a replace load installs a page as it came).
   */
  lemma {:induction false} RunPreservesValid(vm: ListVm, events: seq<Event>)
    requires Valid(vm)
    requires forall i :: 0 <= i < |events| ==> PageDistinct(events[i])
    ensures Valid(Run(vm, events).vm)
    decreases |events|
  {
    if events != [] {
      HandlePreservesValid(vm, events[0]);
      RunPreservesValid(Handle(vm, events[0]).vm, events[1..]);
    }
  }
}

=== FILE: list_state.dfy ===
/** The photos list screen's sealed state. */
module ListState {
  import opened Wrappers
  import opened Results
  import opened Domain

  /**
   * Exactly one of five shapes. In `Loading`, `Error` and `Empty` an absent
   * query means the recent feed and a present one means a search; all three
   * default to the recent feed, and both result shapes default to not loading
   * more. (The search text of `SearchResults` is `searchQuery` here, because
   * Dafny gives every constructor field of one name the same type.)
   */
  datatype PhotosListState =
    | RecentPhotos(items: seq<Photo>, currentPage: int, totalPages: int, isLoadingMore: bool := false)
    | SearchResults(searchQuery: string, items: seq<Photo>, currentPage: int, totalPages: int, isLoadingMore: bool := false)
    | Loading(query: Option<string> := None)
    | Error(throwable: Throwable, query: Option<string> := None)
    | Empty(query: Option<string> := None)
  {
    /** A results shape: the only ones holding photos. */
    predicate ShowsResults() {
      RecentPhotos? || SearchResults?
    }

    /** `hasMore`: further pages exist beyond the current one. */
    predicate HasMore()
      requires ShowsResults()
    {
      currentPage < totalPages
    }

    /** `copy(isLoadingMore = flag)` on a results state. */
    function WithLoadingMore(flag: bool): (s: PhotosListState)
      requires ShowsResults()
      ensures s.ShowsResults() && s.isLoadingMore == flag
      ensures s.RecentPhotos? == RecentPhotos? && s.items == items
      ensures s.currentPage == currentPage && s.totalPages == totalPages
      ensures SearchResults? ==> s.searchQuery == searchQuery
    {
      match this
      case RecentPhotos(items, currentPage, totalPages, _) => RecentPhotos(items, currentPage, totalPages, flag)
      case SearchResults(query, items, currentPage, totalPages, _) => SearchResults(query, items, currentPage, totalPages, flag)
    }

    /** The photo ids on screen never repeat. */
    predicate ItemsDistinct() {
      ShowsResults() ==> DistinctIds(items)
    }
  }
}

=== FILE: list_view_model.dfy ===
/**
 * `PhotosListViewModel` as pure transitions. Its mutable fields (the state,
 * the search input, the debounce job) become a `ListVm` value, and every side
 * effect (a page fetch, a poll snapshot write, work scheduling, navigation)
 * becomes an `Effect` in the returned list instead of being performed.
 *
 * A page load is two steps: the action that begins it (setting `Loading` or
 * `isLoadingMore` and emitting `StartFetch`), and `Complete`, which receives
 * the fetch result as input whenever the environment delivers it. Loads may
 * complete in any order, as the coroutines allow. Each load carries a ticket;
 * a load is live while its ticket is a key of `inFlight`, which remembers
 * the request so that a completion only has to name the ticket.
 *
 * The debounce job is one slot. `QueryChanged` cancels it and starts waiting
 * for the new text; `Fire` is the quiet period elapsing, which commits the
 * text. The load a commit starts runs inside the same job, so cancelling the
 * job after it fired also cancels that load: its ticket leaves `inFlight` and
 * its result is never applied.
 */
module ListViewModel {
  import opened Wrappers
  import opened Results
  import opened Text
  import opened Domain
  import opened ListState

  const PageSize: nat := 30
  const WorkName: string := "photos_poll"

  /** The intents `dispatch` handles. */
  datatype Action =
    | LoadInitial
    | QueryChanged(text: string)
    | LoadNextPage
    | OpenPhoto(photoId: string, secret: string)
    | Retry
    | ClearSearch

  /** Which listing a page request asks for. */
  datatype Feed = RecentFeed | SearchFeed(query: string)

  /** A page request and how its result will be applied (`replace` or append). */
  datatype Load = Load(ticket: nat, feed: Feed, page: int, perPage: nat, replace: bool)

  /** `ExistingPeriodicWorkPolicy`; the view model only uses REPLACE. */
  datatype ExistingWorkPolicy = ReplaceExisting

  datatype Effect =
    | StartFetch(load: Load)
    | SavePollState(query: string, firstPageIds: seq<string>)
    | EnqueueUniquePeriodicWork(workName: string, policy: ExistingWorkPolicy)
    | CancelUniqueWork(workName: string)
    | ClearPollState
    | NavigateToDetail(photoId: string, secret: string)

  /** `searchDebounceJob`: none, waiting out the quiet period, or running the load it started. */
  datatype DebounceJob = NoJob | Waiting(text: string) | Running(ticket: nat)

  datatype ListVm = ListVm(
    state: PhotosListState,
    searchInput: string,
    debounce: DebounceJob,
    inFlight: map<nat, Load>,
    nextTicket: nat)

  /** A transition's new view model and the effects it asked for, in order. */
  datatype Step = Step(vm: ListVm, effects: seq<Effect>)

  /** A new state with the effects that accompany it. */
  datatype Applied = Applied(state: PhotosListState, effects: seq<Effect>)

  /** The view model as constructed, before `init` dispatches `LoadInitial`. */
  const Fresh: ListVm := ListVm(Loading(), "", NoJob, map[], 0)

  /** The feed a committed search text selects: blank text means the recent feed. */
  function CommitFeed(text: string): Feed {
    if IsBlank(text) then RecentFeed else SearchFeed(text)
  }

  /** The feed a results state pages through. */
  function FeedOf(s: PhotosListState): Feed
    requires s.ShowsResults()
  {
    if s.RecentPhotos? then RecentFeed else SearchFeed(s.searchQuery)
  }

  // ---------------------------------------------------------------------------
  // Beginning a load
  // ---------------------------------------------------------------------------

  /** Allocates the next ticket, marks it live and asks for the fetch. */
  function StartLoad(vm: ListVm, feed: Feed, page: int, replace: bool): (r: Step)
    ensures r.effects == [StartFetch(Load(vm.nextTicket, feed, page, PageSize, replace))]
    ensures r.vm == vm.(inFlight := vm.inFlight[vm.nextTicket := r.effects[0].load], nextTicket := vm.nextTicket + 1)
  {
    var load := Load(vm.nextTicket, feed, page, PageSize, replace);
    Step(vm.(inFlight := vm.inFlight[vm.nextTicket := load], nextTicket := vm.nextTicket + 1), [StartFetch(load)])
  }

  /**
   * `loadRecentPage` up to the fetch: a replace shows `Loading` for the recent
   * feed, an append onto recent photos marks them as loading more, any other
   * append leaves the state alone; in every case one fetch of the requested
   * recent page starts under a fresh ticket.
   */
  function BeginRecentPage(vm: ListVm, page: int, replace: bool): (r: Step)
    ensures replace ==> r.vm.state == Loading(None)
    ensures !replace && vm.state.RecentPhotos? ==> r.vm.state == vm.state.WithLoadingMore(true)
    ensures !replace && !vm.state.RecentPhotos? ==> r.vm.state == vm.state
    ensures r.effects == [StartFetch(Load(vm.nextTicket, RecentFeed, page, PageSize, replace))]
    ensures r.vm.inFlight == vm.inFlight[vm.nextTicket := r.effects[0].load] && r.vm.nextTicket == vm.nextTicket + 1
    ensures r.vm.searchInput == vm.searchInput && r.vm.debounce == vm.debounce
  {
    var state :=
      if replace then Loading(None)
      else if vm.state.RecentPhotos? then vm.state.WithLoadingMore(true)
      else vm.state;
    StartLoad(vm.(state := state), RecentFeed, page, replace)
  }

  /**
   * `loadSearchPage` up to the fetch; a blank query returns at once. A
   * replace shows `Loading` for the query, an append onto that query's
   * results marks them as loading more, any other append leaves the state
   * alone; one fetch of the requested page of the search starts.
   */
  function BeginSearchPage(vm: ListVm, page: int, query: string, replace: bool): (r: Step)
    ensures IsBlank(query) ==> r == Step(vm, [])
    ensures !IsBlank(query) && replace ==> r.vm.state == Loading(Some(query))
    ensures !IsBlank(query) && !replace && vm.state.SearchResults? && vm.state.searchQuery == query ==>
      r.vm.state == vm.state.WithLoadingMore(true)
    ensures !IsBlank(query) && !replace && !(vm.state.SearchResults? && vm.state.searchQuery == query) ==>
      r.vm.state == vm.state
    ensures !IsBlank(query) ==>
      && r.effects == [StartFetch(Load(vm.nextTicket, SearchFeed(query), page, PageSize, replace))]
      && r.vm.inFlight == vm.inFlight[vm.nextTicket := r.effects[0].load] && r.vm.nextTicket == vm.nextTicket + 1
      && r.vm.searchInput == vm.searchInput && r.vm.debounce == vm.debounce
  {
    if IsBlank(query) then Step(vm, [])
    else
      var state :=
        if replace then Loading(Some(query))
        else if vm.state.SearchResults? && vm.state.searchQuery == query then vm.state.WithLoadingMore(true)
        else vm.state;
      StartLoad(vm.(state := state), SearchFeed(query), page, replace)
  }

  /**
   * `loadInitial` and the body of the debounce job: blank text loads page 1
   * of the recent feed, other text page 1 of its search, always replacing the
   * state with `Loading` for that feed first.
   */
  function CommitText(vm: ListVm, text: string): (r: Step)
    ensures r.effects == [StartFetch(Load(vm.nextTicket, CommitFeed(text), 1, PageSize, true))]
    ensures r.vm.state == Loading(if IsBlank(text) then None else Some(text))
    ensures r.vm.inFlight == vm.inFlight[vm.nextTicket := r.effects[0].load] && r.vm.nextTicket == vm.nextTicket + 1
    ensures r.vm.searchInput == vm.searchInput && r.vm.debounce == vm.debounce
  {
    if IsBlank(text) then BeginRecentPage(vm, 1, true) else BeginSearchPage(vm, 1, text, true)
  }

  /**
   * `searchDebounceJob?.cancel()`: a commit still waiting never happens, and a
   * load the job already started will not be applied.
   */
  function CancelDebounce(vm: ListVm): (r: ListVm)
    ensures r.debounce == NoJob
    ensures r.inFlight == if vm.debounce.Running? then vm.inFlight - {vm.debounce.ticket} else vm.inFlight
    ensures r.state == vm.state && r.searchInput == vm.searchInput && r.nextTicket == vm.nextTicket
  {
    match vm.debounce
    case Running(t) => vm.(debounce := NoJob, inFlight := vm.inFlight - {t})
    case _ => vm.(debounce := NoJob)
  }

  /** `cancelPolling`: cancel the unique poll work, then clear the poll snapshot. */
  const CancelPolling: seq<Effect> := [CancelUniqueWork(WorkName), ClearPollState]

  /** `persistAndSchedulePolling`: save the snapshot, then (re)enqueue the unique periodic poll. */
  function PersistAndSchedulePolling(firstPageIds: seq<string>, query: string): seq<Effect> {
    [SavePollState(query, firstPageIds), EnqueueUniquePeriodicWork(WorkName, ReplaceExisting)]
  }

  // ---------------------------------------------------------------------------
  // dispatch
  // ---------------------------------------------------------------------------

  /** `loadNextPage` fetches only from a results state that is idle and has further pages. */
  predicate NextPageStarts(s: PhotosListState) {
    && s.ShowsResults() && !s.isLoadingMore && s.HasMore()
    && (s.SearchResults? ==> !IsBlank(s.searchQuery))
  }

  /**
   * `loadNextPage`: from an idle results state with more pages, mark it as
   * loading more and request page `currentPage + 1` of the same feed as an
   * append; in every other state, do nothing.
   */
  function NextPage(vm: ListVm): (r: Step)
    ensures !NextPageStarts(vm.state) ==> r == Step(vm, [])
    ensures NextPageStarts(vm.state) ==>
      && r.vm.state == vm.state.WithLoadingMore(true)
      && r.effects == [StartFetch(Load(vm.nextTicket, FeedOf(vm.state), vm.state.currentPage + 1, PageSize, false))]
      && r.vm.searchInput == vm.searchInput && r.vm.debounce == vm.debounce
      && r.vm.inFlight == vm.inFlight[vm.nextTicket := r.effects[0].load] && r.vm.nextTicket == vm.nextTicket + 1
  {
    match vm.state
    case RecentPhotos(_, currentPage, _, isLoadingMore) =>
      if !isLoadingMore && vm.state.HasMore() then BeginRecentPage(vm, currentPage + 1, false) else Step(vm, [])
    case SearchResults(query, _, currentPage, _, isLoadingMore) =>
      if !isLoadingMore && vm.state.HasMore() then BeginSearchPage(vm, currentPage + 1, query, false) else Step(vm, [])
    case _ => Step(vm, [])
  }

  /**
   * `ClearSearch`: cancel the debounce job, cancel the poll work and clear the
   * snapshot, empty the search input and replace-load page 1 of the recent feed.
   */
  function OnClearSearch(vm: ListVm): (r: Step)
    ensures r.vm.state == Loading(None) && r.vm.searchInput == "" && r.vm.debounce == NoJob
    ensures r.effects == CancelPolling + [StartFetch(Load(vm.nextTicket, RecentFeed, 1, PageSize, true))]
    ensures r.vm.inFlight == CancelDebounce(vm).inFlight[vm.nextTicket := r.effects[2].load]
  {
    var s := BeginRecentPage(CancelDebounce(vm).(searchInput := ""), 1, true);
    Step(s.vm, CancelPolling + s.effects)
  }

  /** `dispatch(intent)`, up to the point where any load it starts suspends on its fetch. */
  function Dispatch(vm: ListVm, action: Action): (r: Step)
    ensures action.LoadInitial? || action.Retry? ==> r == CommitText(vm, vm.searchInput)
    ensures action.QueryChanged? ==>
      && r.effects == [] && r.vm.state == vm.state
      && r.vm.searchInput == action.text && r.vm.debounce == Waiting(action.text)
      && r.vm.inFlight == CancelDebounce(vm).inFlight && r.vm.nextTicket == vm.nextTicket
    ensures action.LoadNextPage? ==> r == NextPage(vm)
    ensures action.OpenPhoto? ==> r == Step(vm, [NavigateToDetail(action.photoId, action.secret)])
    ensures action.ClearSearch? ==> r == OnClearSearch(vm)
  {
    match action
    case LoadInitial => CommitText(vm, vm.searchInput)
    case Retry => CommitText(vm, vm.searchInput)
    case QueryChanged(text) => Step(CancelDebounce(vm).(searchInput := text, debounce := Waiting(text)), [])
    case LoadNextPage => NextPage(vm)
    case OpenPhoto(photoId, secret) => Step(vm, [NavigateToDetail(photoId, secret)])
    case ClearSearch => OnClearSearch(vm)
  }

  /**
   * The debounce delay elapsing: a waiting commit runs and its load becomes
   * the job's running load; with nothing waiting, nothing happens.
   */
  function Fire(vm: ListVm): (r: Step)
    ensures !vm.debounce.Waiting? ==> r == Step(vm, [])
    ensures vm.debounce.Waiting? ==>
      && r.vm == CommitText(vm, vm.debounce.text).vm.(debounce := Running(vm.nextTicket))
      && r.effects == CommitText(vm, vm.debounce.text).effects
  {
    match vm.debounce
    case Waiting(text) =>
      var s := CommitText(vm, text);
      Step(s.vm.(debounce := Running(vm.nextTicket)), s.effects)
    case _ => Step(vm, [])
  }

  /** The view model right after `init { dispatch(LoadInitial) }`. */
  function Init(): (r: Step)
    ensures r.vm.state == Loading(None) && r.vm.searchInput == ""
    ensures r.effects == [StartFetch(Load(0, RecentFeed, 1, PageSize, true))]
  {
    Dispatch(Fresh, LoadInitial)
  }

  // ---------------------------------------------------------------------------
  // Completing a load
  // ---------------------------------------------------------------------------

  /**
   * The recent-feed branch of `loadRecentPage` once its fetch has returned.
   * A success shows recent photos with the result's page numbers, or `Empty`
   * when there are none: a replace shows exactly the page, an append the
   * photos already shown followed by the page, each id once. A failure is an
   * `Error` unless it was an append onto recent photos, which only stop
   * loading more.
   */
  function RecentOutcome(current: PhotosListState, replace: bool, result: KResult<PagedResult>): (s: PhotosListState)
    ensures s.RecentPhotos? || s.Empty? || s.Error?
    ensures s.Empty? ==> result.Success? && s.query == None
    ensures s.Error? ==> result.Failure? && s.throwable == result.error && s.query == None
    ensures result.Failure? ==> (s.Error? <==> replace || !current.RecentPhotos?)
    ensures result.Failure? && s.RecentPhotos? ==> s == current.WithLoadingMore(false)
    ensures result.Success? && s.RecentPhotos? ==>
      !s.isLoadingMore && s.currentPage == result.value.page && s.totalPages == result.value.totalPages
    ensures result.Success? && replace ==>
      (s.Empty? <==> result.value.items == []) && (s.RecentPhotos? ==> s.items == result.value.items)
    ensures result.Success? && !replace ==>
      var shown := if current.RecentPhotos? then current.items else [];
      && (s.Empty? <==> shown == [] && result.value.items == [])
      && (s.RecentPhotos? ==> DistinctIds(s.items) && IdSet(s.items) == IdSet(shown) + IdSet(result.value.items))
      && (s.RecentPhotos? && DistinctIds(shown) ==> shown <= s.items)
  {
    match result
    case Success(page) =>
      var shown := if current.RecentPhotos? then current.items else [];
      var newItems :=
        if replace then page.items
        else DistinctById(shown + page.items);
      IdSetAppend(shown, page.items);
      DistinctPrefix(shown, page.items);
      assert shown + page.items != [] ==> (shown + page.items)[0].id in IdSet(shown + page.items);
      if newItems == [] then Empty(None) else RecentPhotos(newItems, page.page, page.totalPages, false)
    case Failure(t) =>
      if replace || !current.RecentPhotos? then Error(t, None) else current.WithLoadingMore(false)
  }

  /** A search page installed as a fresh first page for its query. */
  function FreshSearch(query: string, page: PagedResult): Applied {
    if page.items == [] then Applied(Empty(Some(query)), [])
    else
      var s := SearchResults(query, page.items, page.page, page.totalPages, false);
      Applied(s, PersistAndSchedulePolling(Ids(Take(s.items, PageSize)), s.searchQuery))
  }

  /** The stale-result guard: an append merges only into the same query's results while they are loading more. */
  predicate MergesInto(current: PhotosListState, query: string, replace: bool) {
    current.SearchResults? && !replace && current.searchQuery == query && current.isLoadingMore
  }

  /**
   * The search branch of `loadSearchPage` once its fetch has returned. Every
   * state it produces belongs to `query`. A success merges into the query's
   * results when the stale-result guard holds; otherwise it starts the query
   * over with exactly the page (persisting the page's first ids and
   * rescheduling the poll) or with `Empty`. A failure is an `Error` unless
   * the query's own results are shown and this was an append, which only
   * stops loading more.
   */
  function SearchOutcome(current: PhotosListState, query: string, replace: bool, result: KResult<PagedResult>): (r: Applied)
    ensures r.state.SearchResults? || r.state.Empty? || r.state.Error?
    ensures r.state.SearchResults? ==> r.state.searchQuery == query
    ensures r.state.Empty? ==> result.Success? && result.value.items == [] && r.state.query == Some(query)
    ensures r.state.Error? ==> result.Failure? && r.state.throwable == result.error && r.state.query == Some(query)
    ensures result.Failure? ==> r.effects == [] && (r.state.Error? <==> replace || !current.SearchResults? || current.searchQuery != query)
    ensures result.Failure? && r.state.SearchResults? ==> r.state == current.WithLoadingMore(false)
    ensures result.Success? && r.state.SearchResults? ==>
      !r.state.isLoadingMore && r.state.currentPage == result.value.page && r.state.totalPages == result.value.totalPages
    ensures result.Success? && MergesInto(current, query, replace) ==>
      && r.effects == [] && r.state.SearchResults?
      && DistinctIds(r.state.items) && IdSet(r.state.items) == IdSet(current.items) + IdSet(result.value.items)
      && (DistinctIds(current.items) ==> current.items <= r.state.items)
    ensures result.Success? && !MergesInto(current, query, replace) ==>
      && (r.state.Empty? <==> result.value.items == [])
      && (r.state.SearchResults? ==> r.state.items == result.value.items)
      && r.effects == (if result.value.items == [] then []
                       else [SavePollState(query, Ids(Take(result.value.items, PageSize))), EnqueueUniquePeriodicWork(WorkName, ReplaceExisting)])
  {
    match result
    case Success(page) =>
      if MergesInto(current, query, replace) then
        IdSetAppend(current.items, page.items);
        DistinctPrefix(current.items, page.items);
        Applied(SearchResults(query, DistinctById(current.items + page.items), page.page, page.totalPages, false), [])
      else FreshSearch(query, page)
    case Failure(t) =>
      if replace || !current.SearchResults? || current.searchQuery != query then Applied(Error(t, Some(query)), [])
      else Applied(current.WithLoadingMore(false), [])
  }

  /**
   * The result of the load with this ticket arriving. A load that is not live
   * (cancelled with its debounce job, already completed, or never started)
   * changes nothing; otherwise the load stops being live, the debounce job
   * ends if this was its load, and the state is updated as the load's branch
   * prescribes. The search input is never touched.
   */
  function Complete(vm: ListVm, ticket: nat, result: KResult<PagedResult>): (r: Step)
    ensures ticket !in vm.inFlight ==> r == Step(vm, [])
    ensures r.vm.searchInput == vm.searchInput && r.vm.nextTicket == vm.nextTicket
    ensures r.vm.inFlight == vm.inFlight - {ticket}
    ensures ticket in vm.inFlight && vm.inFlight[ticket].feed.RecentFeed? ==> r.effects == []
  {
    if ticket !in vm.inFlight then Step(vm, [])
    else
      var load := vm.inFlight[ticket];
      var vm1 := vm.(
        inFlight := vm.inFlight - {ticket},
        debounce := if vm.debounce == Running(ticket) then NoJob else vm.debounce);
      match load.feed
      case RecentFeed => Step(vm1.(state := RecentOutcome(vm.state, load.replace, result)), [])
      case SearchFeed(query) =>
        var a := SearchOutcome(vm.state, query, load.replace, result);
        Step(vm1.(state := a.state), a.effects)
  }
}

=== FILE: mapper.dfy ===
/** DTO to domain mapping: `PhotoDto.toDomain`, `PhotoInfoDto.toDetailDomain`, `parseTotal`. */
module Mapper {
  import opened Wrappers
  import opened Text
  import opened Dto
  import opened Domain
  import opened ImageUrls

  const Untitled: string := "Untitled"
  const UnknownOwner: string := "Unknown"

  lemma FallbacksNotBlank()
    ensures !IsBlank(Untitled) && !IsBlank(UnknownOwner)
  {
    assert !IsWhitespace(Untitled[0]);
    assert !IsWhitespace(UnknownOwner[0]);
  }

  /**
   * `PhotoDto.toDomain()`. The title falls back to "Untitled" when blank; the
   * owner name is `owner_name` whenever the key is present, even when blank,
   * and otherwise the owner id, falling back to "Unknown" when that is blank.
   */
  function ToDomain(dto: PhotoDto): (p: Photo)
    ensures p.id == dto.id && p.dateTaken == dto.dateTaken && p.thumbnailUrl == dto.urlS
    ensures p.secret == dto.secret && p.server == dto.server
    ensures !IsBlank(p.title)
    ensures !IsBlank(dto.title) ==> p.title == dto.title
    ensures IsBlank(dto.title) ==> p.title == Untitled
    ensures dto.ownerName.Some? ==> p.ownerName == dto.ownerName.value
    ensures dto.ownerName.None? ==> !IsBlank(p.ownerName)
    ensures dto.ownerName.None? && !IsBlank(dto.owner) ==> p.ownerName == dto.owner
    ensures dto.ownerName.None? && IsBlank(dto.owner) ==> p.ownerName == UnknownOwner
    ensures IsBlank(p.ownerName) ==> dto.ownerName.Some?
  {
    FallbacksNotBlank();
    Photo(
      id := dto.id,
      title := IfBlank(dto.title, Untitled),
      ownerName := dto.ownerName.GetOr(IfBlank(dto.owner, UnknownOwner)),
      dateTaken := dto.dateTaken,
      thumbnailUrl := dto.urlS,
      secret := dto.secret,
      server := dto.server)
  }

  /** `photo.map { it.toDomain() }`. */
  function MapToDomain(dtos: seq<PhotoDto>): (items: seq<Photo>)
    ensures |items| == |dtos|
    ensures forall i :: 0 <= i < |dtos| ==> items[i] == ToDomain(dtos[i])
  {
    seq(|dtos|, i requires 0 <= i < |dtos| => ToDomain(dtos[i]))
  }

  /** The `_content` of an optional text wrapper, when present and not blank. */
  function NonBlankContent(w: Option<ContentWrapperDto>): (r: Option<string>)
    ensures r.Some? <==> w.Some? && !IsBlank(w.value.content)
    ensures r.Some? ==> r.value == w.value.content
  {
    match w
    case Some(c) => if IsBlank(c.content) then None else Some(c.content)
    case None => None
  }

  /**
   * `PhotoInfoDto.toDetailDomain()`. The owner shown is the username when it
   * is not blank, else the owner's nsid (even when that is blank), and
   * "Unknown" only when there is no owner object at all.
   */
  function ToDetailDomain(dto: PhotoInfoDto): (d: PhotoDetail)
    ensures d.id == dto.id
    ensures !IsBlank(d.title)
    ensures dto.title.Some? && !IsBlank(dto.title.value.content) ==> d.title == dto.title.value.content
    ensures dto.title.None? || IsBlank(dto.title.value.content) ==> d.title == Untitled
    ensures dto.owner.None? ==> d.ownerName == UnknownOwner
    ensures dto.owner.Some? && !IsBlank(dto.owner.value.username) ==> d.ownerName == dto.owner.value.username
    ensures dto.owner.Some? && IsBlank(dto.owner.value.username) ==> d.ownerName == dto.owner.value.nsid
    ensures d.dateTaken == (if dto.dates.Some? then dto.dates.value.taken else None)
    ensures d.largeImageUrl == Some(StaticImageUrl(dto.server, dto.id, dto.secret, 'z'))
  {
    FallbacksNotBlank();
    var ownerDisplay :=
      match dto.owner
      case Some(o) => if IsBlank(o.username) then o.nsid else o.username
      case None => UnknownOwner;
    PhotoDetail(
      id := dto.id,
      title := NonBlankContent(dto.title).GetOr(Untitled),
      ownerName := ownerDisplay,
      dateTaken := match dto.dates case Some(ds) => ds.taken case None => None,
      largeImageUrl := Some(StaticImageUrl(dto.server, dto.id, dto.secret, 'z')))
  }

  /**
   * The description `toDetailDomain` computes: the description text when
   * present and not blank. `PhotoDetail` declares no field to hold it.
   */
  function DetailDescription(dto: PhotoInfoDto): (r: Option<string>)
    ensures r.Some? ==> !IsBlank(r.value)
    ensures r.Some? <==> dto.description.Some? && !IsBlank(dto.description.value.content)
    ensures r.Some? ==> r.value == dto.description.value.content
  {
    NonBlankContent(dto.description)
  }

  /** `parseTotal`: the integer a numeric string spells, and 0 for anything else. */
  function ParseTotal(totalRaw: string): (n: int)
    ensures IntMin <= n <= IntMax
    ensures ToIntOrNull(totalRaw).Some? ==> n == ToIntOrNull(totalRaw).value
    ensures ToIntOrNull(totalRaw).None? ==> n == 0
    ensures totalRaw == "" ==> n == 0
  {
    ToIntOrNull(totalRaw).GetOr(0)
  }

  /** Every `Int` printed in decimal parses back to itself. */
  lemma ParseTotalRoundTrip(n: int)
    requires IntMin <= n <= IntMax
    ensures ParseTotal(IntToString(n)) == n
  {
    ToIntOrNullRoundTrip(n);
  }
}

=== FILE: poll_store.dfy ===
/**
 * `ActiveSearchPollStateDataSource`: the persisted poll snapshot as a
 * register of two independent preference keys, the active query and the set
 * of first-page photo ids. DataStore itself is not modelled; each operation
 * is a pure function from the stored preferences to the new ones.
 */
module PollStore {
  import opened Wrappers

  /**
   * The snapshot as the worker sees it. The ids are stored as a string set,
   * so their order is not kept; the set is what the model carries.
   */
  datatype ActiveSearchPollState = ActiveSearchPollState(activeSearchQuery: string, firstPagePhotoIds: set<string>)

  /** The two preference keys `active_search_query` and `first_page_photo_ids`, each possibly absent. */
  datatype Prefs = Prefs(activeSearchQuery: Option<string>, firstPageIds: Option<set<string>>)

  /** A store nothing has been written to. */
  const EmptyPrefs := Prefs(None, None)

  /** The set of a list of ids: duplicates collapse, order is lost. */
  function ToSet(ids: seq<string>): (s: set<string>)
    ensures forall id :: id in s <==> id in ids
  {
    set i | 0 <= i < |ids| :: ids[i]
  }

  /** The `activeSearchPollState` read rule: a snapshot only when both keys are present. */
  function Read(p: Prefs): (r: Option<ActiveSearchPollState>)
    ensures r.Some? <==> p.activeSearchQuery.Some? && p.firstPageIds.Some?
    ensures r.Some? ==> (r.value.activeSearchQuery == p.activeSearchQuery.value
                         && r.value.firstPagePhotoIds == p.firstPageIds.value)
  {
    match p.activeSearchQuery
    case None => None
    case Some(query) =>
      match p.firstPageIds
      case None => None
      case Some(ids) => Some(ActiveSearchPollState(query, ids))
  }

  /** `savePollState`: both keys written in one edit, the ids as a set. */
  function SavePollState(p: Prefs, query: string, firstPagePhotoIds: seq<string>): (r: Prefs)
    ensures r.activeSearchQuery == Some(query)
    ensures r.firstPageIds.Some? && (forall id :: id in r.firstPageIds.value <==> id in firstPagePhotoIds)
  {
    p.(activeSearchQuery := Some(query), firstPageIds := Some(ToSet(firstPagePhotoIds)))
  }

  /** `clearPollState`: both keys removed in one edit. */
  function ClearPollState(p: Prefs): (r: Prefs)
    ensures r.activeSearchQuery.None? && r.firstPageIds.None?
  {
    p.(activeSearchQuery := None, firstPageIds := None)
  }

  /** `getActiveSearchPollState`: the first value of the read flow, which is the current one. */
  function GetActiveSearchPollState(p: Prefs): (r: Option<ActiveSearchPollState>)
    ensures r.Some? <==> p.activeSearchQuery.Some? && p.firstPageIds.Some?
    ensures r == Read(p)
  {
    Read(p)
  }

  /**
   * A save is read back as the saved query with exactly the saved ids as a
   * set, whatever was stored before, and even when the list of ids is empty.
   */
  lemma SaveThenRead(p: Prefs, query: string, ids: seq<string>)
    ensures var r := Read(SavePollState(p, query, ids));
      && r.Some? && r.value.activeSearchQuery == query
      && (forall id :: id in r.value.firstPagePhotoIds <==> id in ids)
      && (ids == [] ==> r.value.firstPagePhotoIds == {})
  {
  }

  /** After a clear there is no snapshot. */
  lemma ClearThenRead(p: Prefs)
    ensures Read(ClearPollState(p)) == None
  {
  }

  /** A store holding only one of the two keys has no snapshot. */
  lemma PartialReadsNothing(p: Prefs)
    requires p.activeSearchQuery.None? || p.firstPageIds.None?
    ensures Read(p) == None
  {
  }

  /**
   * A save replaces both keys wholesale: whatever was saved or cleared
   * before, only the last save is read back.
   */
  lemma LastWriterWins(p: Prefs, q1: string, ids1: seq<string>, q2: string, ids2: seq<string>)
    ensures SavePollState(SavePollState(p, q1, ids1), q2, ids2) == SavePollState(EmptyPrefs, q2, ids2)
    ensures SavePollState(ClearPollState(p), q2, ids2) == SavePollState(EmptyPrefs, q2, ids2)
  {
  }

  /** Two saves whose id lists hold the same ids, in any order and with any repeats, store the same thing. */
  lemma SaveForgetsOrderAndRepeats(p: Prefs, query: string, ids1: seq<string>, ids2: seq<string>)
    requires forall id :: id in ids1 <==> id in ids2
    ensures SavePollState(p, query, ids1) == SavePollState(p, query, ids2)
  {
    assert ToSet(ids1) == ToSet(ids2);
  }
}

=== FILE: poll_worker.dfy ===
/**
 * `PhotosPollWorker.doWork`: one background poll run as a pure function from
 * the stored snapshot and the fetch result to the run's outcome, the request
 * it made, the notification it raised and the snapshot it wrote. Building and
 * posting the notification is not modelled; only its count is.
 */
module PollWorker {
  import opened Wrappers
  import opened Results
  import opened Text
  import opened Domain
  import opened PollStore

  /** `FIRST_PAGE_SIZE`: the worker always asks for page 1 of this size. */
  const FirstPageSize: nat := 30

  /** `Result.success()` or `Result.retry()` as handed back to WorkManager. */
  datatype WorkResult = WorkSuccess | WorkRetry

  /** The `searchPhotos` call the run makes. */
  datatype SearchRequest = SearchRequest(query: string, page: int, perPage: nat)

  /** The snapshot write `savePollState(query, ids)`. */
  datatype SnapshotWrite = SnapshotWrite(query: string, ids: seq<string>)

  /**
   * Everything one run does: its result, the fetch it made (if any), the
   * number of new photos it notified about (if it notified), and the write it
   * made to the snapshot (if any).
   */
  datatype PollRun = PollRun(result: WorkResult, request: Option<SearchRequest>, notifyCount: Option<nat>, write: Option<SnapshotWrite>)

  /**
   * `newIds.filter { it !in previousIds }`: fetched ids not seen before, in
   * fetch order, each as often as it was fetched.
   */
  function AddedIds(newIds: seq<string>, previous: set<string>): (added: seq<string>)
    ensures |added| <= |newIds|
    ensures forall id :: id in added <==> id in newIds && id !in previous
    ensures forall id :: multiset(added)[id] == if id in previous then 0 else multiset(newIds)[id]
    decreases |newIds|
  {
    if newIds == [] then []
    else
      assert newIds == [newIds[0]] + newIds[1..];
      if newIds[0] in previous then AddedIds(newIds[1..], previous)
      else [newIds[0]] + AddedIds(newIds[1..], previous)
  }

  /** Whether a stored snapshot is worth polling: a non-blank query with at least one remembered id. */
  predicate Polls(snapshot: Option<ActiveSearchPollState>) {
    snapshot.Some? && !IsBlank(snapshot.value.activeSearchQuery) && snapshot.value.firstPagePhotoIds != {}
  }

  /** The request a polling run makes. */
  function RequestFor(state: ActiveSearchPollState): SearchRequest {
    SearchRequest(state.activeSearchQuery, 1, FirstPageSize)
  }

  /**
   * One run of `doWork`, given what the store held and what the fetch of
   * page 1 returned. A missing snapshot, a blank query or an empty id set
   * ends the run successfully without fetching, notifying or writing. A failed
   * fetch asks for a retry and writes nothing. A successful fetch notifies
   * about the ids it did not know, if there are any, and always rewrites the
   * snapshot with the same query and the fetched ids.
   */
  function DoWork(snapshot: Option<ActiveSearchPollState>, fetched: KResult<PagedResult>): (run: PollRun)
    ensures !Polls(snapshot) ==> run == PollRun(WorkSuccess, None, None, None)
    ensures Polls(snapshot) ==> run.request == Some(SearchRequest(snapshot.value.activeSearchQuery, 1, 30))
    ensures Polls(snapshot) && fetched.Failure? ==> run == PollRun(WorkRetry, run.request, None, None)
    ensures Polls(snapshot) && fetched.Success? ==>
      && run.result == WorkSuccess
      && run.write == Some(SnapshotWrite(snapshot.value.activeSearchQuery, Ids(fetched.value.items)))
      && (run.notifyCount.Some? <==> exists i :: 0 <= i < |fetched.value.items| && fetched.value.items[i].id !in snapshot.value.firstPagePhotoIds)
      && (run.notifyCount.Some? ==> run.notifyCount.value == |AddedIds(Ids(fetched.value.items), snapshot.value.firstPagePhotoIds)| > 0)
  {
    if !Polls(snapshot) then PollRun(WorkSuccess, None, None, None)
    else
      var state := snapshot.value;
      var request := Some(RequestFor(state));
      match fetched
      case Failure(_) => PollRun(WorkRetry, request, None, None)
      case Success(paged) =>
        var newIds := Ids(paged.items);
        var added := AddedIds(newIds, state.firstPagePhotoIds);
        AddedNonEmpty(paged.items, state.firstPagePhotoIds);
        var notify := if |added| > 0 then Some(|added|) else None;
        PollRun(WorkSuccess, request, notify, Some(SnapshotWrite(state.activeSearchQuery, newIds)))
  }

  /** Some fetched photo is new exactly when the list of added ids is not empty. */
  lemma AddedNonEmpty(items: seq<Photo>, previous: set<string>)
    ensures |AddedIds(Ids(items), previous)| > 0 <==> exists i :: 0 <= i < |items| && items[i].id !in previous
  {
    var newIds := Ids(items);
    var added := AddedIds(newIds, previous);
    if |added| > 0 {
      assert added[0] in newIds;
      var j :| 0 <= j < |newIds| && newIds[j] == added[0];
      assert items[j].id !in previous;
    }
    if exists i :: 0 <= i < |items| && items[i].id !in previous {
      var i :| 0 <= i < |items| && items[i].id !in previous;
      assert newIds[i] in added;
    }
  }

  /** A run against the store: read the snapshot, run, and apply the run's write. */
  function PollCycle(prefs: Prefs, fetched: KResult<PagedResult>): (r: (PollRun, Prefs))
    ensures r.0.write.None? ==> r.1 == prefs
    ensures r.0.write.Some? ==> Read(r.1) == Some(ActiveSearchPollState(r.0.write.value.query, ToSet(r.0.write.value.ids)))
  {
    var run := DoWork(GetActiveSearchPollState(prefs), fetched);
    var prefs' := match run.write
      case None => prefs
      case Some(w) => SavePollState(prefs, w.query, w.ids);
    (run, prefs')
  }

  /**
   * The fetched ids split into the added ones and the known ones, repeats
   * included, so the notification count is the number of fetched ids minus
   * the known ones.
   */
  lemma AddedIdsCount(newIds: seq<string>, previous: set<string>)
    ensures multiset(AddedIds(newIds, previous)) + multiset(FilterIn(newIds, previous)) == multiset(newIds)
    ensures |AddedIds(newIds, previous)| == |newIds| - |FilterIn(newIds, previous)|
  {
    var added := AddedIds(newIds, previous);
    var known := FilterIn(newIds, previous);
    assert forall id :: (multiset(added) + multiset(known))[id] == multiset(newIds)[id];
    assert multiset(added) + multiset(known) == multiset(newIds);
    assert |multiset(added) + multiset(known)| == |added| + |known|;
  }

  /** The fetched ids that were already known, in fetch order. */
  function FilterIn(newIds: seq<string>, previous: set<string>): (known: seq<string>)
    ensures forall id :: id in known <==> id in newIds && id in previous
    ensures forall id :: multiset(known)[id] == if id in previous then multiset(newIds)[id] else 0
    decreases |newIds|
  {
    if newIds == [] then []
    else
      assert newIds == [newIds[0]] + newIds[1..];
      if newIds[0] in previous then [newIds[0]] + FilterIn(newIds[1..], previous)
      else FilterIn(newIds[1..], previous)
  }

  /** A first page that only reorders or drops known ids raises no notification. */
  lemma ReorderOrRemovalIsSilent(state: ActiveSearchPollState, page: PagedResult)
    requires Polls(Some(state))
    requires forall i :: 0 <= i < |page.items| ==> page.items[i].id in state.firstPagePhotoIds
    ensures DoWork(Some(state), Success(page)).notifyCount == None
  {
  }

  /**
   * Running twice against an unchanged first page: the second run raises no
   * notification and leaves the store exactly as the first run left it.
   */
  lemma SecondRunIsSilent(prefs: Prefs, page: PagedResult)
    ensures var (run1, prefs1) := PollCycle(prefs, Success(page));
      var (run2, prefs2) := PollCycle(prefs1, Success(page));
      run2.notifyCount == None && prefs2 == prefs1
  {
    var (run1, prefs1) := PollCycle(prefs, Success(page));
    var ids := Ids(page.items);
    if run1.write.Some? {
      var snap := Read(prefs1);
      assert snap.value.firstPagePhotoIds == ToSet(ids);
      if Polls(snap) {
        assert AddedIds(ids, ToSet(ids)) == [] by {
          AddedIdsOfSubset(ids, ToSet(ids));
        }
        var (run2, prefs2) := PollCycle(prefs1, Success(page));
        assert prefs2 == SavePollState(prefs1, snap.value.activeSearchQuery, ids);
      }
    }
  }

  /** No id of a list lies outside a set that holds all of them. */
  lemma {:induction false} AddedIdsOfSubset(newIds: seq<string>, previous: set<string>)
    requires forall i :: 0 <= i < |newIds| ==> newIds[i] in previous
    ensures AddedIds(newIds, previous) == []
    decreases |newIds|
  {
    if newIds != [] {
      AddedIdsOfSubset(newIds[1..], previous);
    }
  }

  /** A failed fetch never changes the store and never notifies. */
  lemma FailureWritesNothing(prefs: Prefs, t: Throwable)
    ensures var (run, prefs') := PollCycle(prefs, Failure(t));
      prefs' == prefs && run.notifyCount == None
      && (run.result == WorkRetry <==> Polls(Read(prefs)))
  {
  }

  /**
   * A fetched first page with no photos is written as an empty id set, after
   * which the worker stops polling until the app saves a new snapshot.
   */
  lemma EmptyPageStopsPolling(prefs: Prefs, page: PagedResult, next: KResult<PagedResult>)
    requires page.items == []
    ensures var (_, prefs1) := PollCycle(prefs, Success(page));
      var (run2, prefs2) := PollCycle(prefs1, next);
      run2 == PollRun(WorkSuccess, None, None, None) && prefs2 == prefs1
  {
    var (run1, prefs1) := PollCycle(prefs, Success(page));
    if run1.write.Some? {
      assert Ids(page.items) == [];
      assert Read(prefs1).value.firstPagePhotoIds == {};
    }
  }
}

=== FILE: repository.dfy ===
/**
 * `PhotoRepositoryImpl`: turning a Flickr response, or the exception the
 * HTTP call threw, into a `Result`. The HTTP call itself is an input.
 */
module Repository {
  import opened Wrappers
  import opened Results
  import opened Dto
  import opened Domain
  import opened Mapper

  const StatOk: string := "ok"
  const UnknownError: string := "Unknown error"
  const NetworkErrorPrefix: string := "Network error: "

  /** What the HTTP call did: it returned a decoded body, or it threw. */
  datatype ApiCall<+T> = Responded(body: T) | Threw(error: Throwable)

  /** `FlickrApiException(code ?: -1, message ?: "Unknown error")`. */
  function ApiError(code: Option<int>, message: Option<string>): (t: Throwable)
    ensures t.FlickrApiException?
    ensures t.code == (if code.Some? then code.value else -1)
    ensures t.message == (if message.Some? then message.value else UnknownError)
  {
    FlickrApiException(code.GetOr(-1), message.GetOr(UnknownError))
  }

  /** `PhotosResponseDto.toResult()`: `null` unless the response is ok and carries photos. */
  function ToResult(dto: PhotosResponseDto): (r: Option<KResult<PagedResult>>)
    ensures r.Some? <==> dto.stat == StatOk && dto.photos.Some?
    ensures r.Some? ==> r.value.Success? && |r.value.value.items| == |dto.photos.value.photo|
    ensures r.Some? ==> forall i :: 0 <= i < |r.value.value.items| ==> r.value.value.items[i] == ToDomain(dto.photos.value.photo[i])
    ensures r.Some? ==> r.value.value.page == dto.photos.value.page && r.value.value.totalPages == dto.photos.value.pages
  {
    if dto.stat != StatOk || dto.photos.None? then None
    else
      var wrapper := dto.photos.value;
      Some(Success(PagedResult(
        items := MapToDomain(wrapper.photo),
        page := wrapper.page,
        totalPages := wrapper.pages,
        totalCount := ParseTotal(wrapper.totalRaw))))
  }

  /** `PhotosResponseDto.toErrorResult()`. */
  function ToErrorResult(dto: PhotosResponseDto): (r: KResult<PagedResult>)
    ensures r.Failure? && r.error.FlickrApiException?
    ensures r.error.code == (if dto.code.Some? then dto.code.value else -1)
    ensures r.error.message == (if dto.message.Some? then dto.message.value else UnknownError)
  {
    Failure(ApiError(dto.code, dto.message))
  }

  /**
   * `response.toResult() ?: response.toErrorResult()`: a page exactly when
   * the status is "ok" and photos are present, with every photo mapped in
   * order and the page numbers copied; otherwise a `FlickrApiException`.
   */
  function ListResponseResult(dto: PhotosResponseDto): (r: KResult<PagedResult>)
    ensures r.Success? <==> dto.stat == StatOk && dto.photos.Some?
    ensures r.Success? ==> |r.value.items| == |dto.photos.value.photo|
    ensures r.Success? ==> forall i :: 0 <= i < |r.value.items| ==> r.value.items[i] == ToDomain(dto.photos.value.photo[i])
    ensures r.Success? ==> r.value.page == dto.photos.value.page && r.value.totalPages == dto.photos.value.pages
    ensures r.Success? ==> r.value.totalCount == ParseTotal(dto.photos.value.totalRaw)
    ensures r.Failure? ==> r.error == ApiError(dto.code, dto.message)
  {
    ToResult(dto).GetOr(ToErrorResult(dto))
  }

  /** How a nullable message prints inside a Kotlin string template. */
  function MessageText(m: Option<string>): string {
    m.GetOr("null")
  }

  /**
   * `translateException`: an `IOException` is wrapped in a new one whose
   * message carries the "Network error: " prefix and whose cause is the
   * original; every other throwable passes through unchanged.
   */
  function TranslateException(t: Throwable): (r: Throwable)
    ensures r.IOException? <==> t.IOException?
    ensures t.IOException? ==> r.cause == Some(t) && r.ioMessage.Some?
    ensures t.IOException? ==> r.ioMessage.value == NetworkErrorPrefix + MessageText(t.ioMessage)
    ensures !t.IOException? ==> r == t
  {
    match t
    case FlickrApiException(_, _) => t
    case IOException(m, _) => IOException(Some(NetworkErrorPrefix + MessageText(m)), Some(t))
    case _ => t
  }

  /** `getRecentPhotos` and `searchPhotos`: the list call's response or exception as a `Result`. */
  function FetchPhotos(call: ApiCall<PhotosResponseDto>): (r: KResult<PagedResult>)
    ensures call.Responded? ==> r == ListResponseResult(call.body)
    ensures call.Threw? ==> r == Failure(TranslateException(call.error))
  {
    match call
    case Responded(dto) => ListResponseResult(dto)
    case Threw(e) => Failure(TranslateException(e))
  }

  /** The `getPhotoInfo` response branch: details exactly when the status is "ok" and a photo is present. */
  function InfoResponseResult(dto: PhotoInfoResponseDto): (r: KResult<PhotoDetail>)
    ensures r.Success? <==> dto.stat == StatOk && dto.photo.Some?
    ensures r.Success? ==> r.value == ToDetailDomain(dto.photo.value)
    ensures r.Failure? ==> r.error == ApiError(dto.code, dto.message)
  {
    if dto.stat == StatOk && dto.photo.Some? then Success(ToDetailDomain(dto.photo.value))
    else Failure(ApiError(dto.code, dto.message))
  }

  /** `getPhotoInfo`. */
  function FetchPhotoInfo(call: ApiCall<PhotoInfoResponseDto>): (r: KResult<PhotoDetail>)
    ensures call.Responded? ==> r == InfoResponseResult(call.body)
    ensures call.Threw? ==> r == Failure(TranslateException(call.error))
  {
    match call
    case Responded(dto) => InfoResponseResult(dto)
    case Threw(e) => Failure(TranslateException(e))
  }

  /**
   * Every failure a list fetch reports is a `FlickrApiException`, an
   * `IOException` carrying the network-error prefix and the original as cause,
   * or a throwable the call itself threw that was neither of those.
   */
  lemma FetchPhotosFailureKinds(call: ApiCall<PhotosResponseDto>)
    requires FetchPhotos(call).Failure?
    ensures var e := FetchPhotos(call).error;
      || e.FlickrApiException?
      || (e.IOException? && call.Threw? && e.cause == Some(call.error)
          && e.ioMessage.Some? && NetworkErrorPrefix <= e.ioMessage.value)
      || (call.Threw? && e == call.error && !e.IOException?)
  {
  }
}

=== FILE: routes.dfy ===
/** `Routes`: the navigation destinations and the detail route builder. */
module Routes {
  import opened Text

  const PhotosList: string := "photos_list"
  const PhotoDetailTemplate: string := "photo_detail/{photoId}/{secret}"
  const PhotoIdArg: string := "{photoId}"
  const SecretArg: string := "{secret}"

  /**
   * `photoDetail(photoId, secret)`: the concrete route to one photo's detail
   * screen, never to be confused with the list destination.
   */
  function PhotoDetailRoute(photoId: string, secret: string): (route: string)
    ensures "photo_detail/" <= route
    ensures |route| == |"photo_detail/"| + |photoId| + 1 + |secret|
    ensures route != PhotosList && !(PhotosList <= route)
  {
    var route := "photo_detail/" + photoId + "/" + secret;
    assert route[5] == '_' != PhotosList[5];
    route
  }

  /** A path segment of a template with its placeholder replaced by the matching argument. */
  function Bind(segment: string, photoId: string, secret: string): string {
    if segment == PhotoIdArg then photoId
    else if segment == SecretArg then secret
    else segment
  }

  /** Every segment bound. */
  function BindAll(segments: seq<string>, photoId: string, secret: string): (bound: seq<string>)
    ensures |bound| == |segments|
  {
    seq(|segments|, i requires 0 <= i < |segments| => Bind(segments[i], photoId, secret))
  }

  /** A route template filled in segment by segment, as the navigation library matches it. */
  function FillTemplate(template: string, photoId: string, secret: string): string {
    Join(BindAll(Split(template, '/'), photoId, secret), '/')
  }

  /** Three pieces joined with a separator. */
  lemma JoinThree(a: string, b: string, c: string, sep: char)
    ensures Join([a, b, c], sep) == a + [sep] + b + [sep] + c
  {
    var parts := [a, b, c];
    assert parts[1..] == [b, c];
    assert parts[1..][1..] == [c];
    assert Join([b, c], sep) == b + [sep] + c;
    assert Join(parts, sep) == a + [sep] + (b + [sep] + c);
  }

  /** The template's segments: the fixed prefix and the two placeholders. */
  lemma TemplateSegments()
    ensures Split(PhotoDetailTemplate, '/') == ["photo_detail", PhotoIdArg, SecretArg]
  {
    JoinThree("photo_detail", PhotoIdArg, SecretArg, '/');
    assert "photo_detail" + ['/'] + PhotoIdArg + ['/'] + SecretArg == PhotoDetailTemplate;
    assert '/' !in "photo_detail" && '/' !in PhotoIdArg && '/' !in SecretArg;
    SplitJoin(["photo_detail", PhotoIdArg, SecretArg], '/');
  }

  /** Binding the template's segments puts the arguments in place of the placeholders. */
  lemma BindTemplateSegments(photoId: string, secret: string)
    ensures BindAll(["photo_detail", PhotoIdArg, SecretArg], photoId, secret) == ["photo_detail", photoId, secret]
  {
    assert "photo_detail"[0] != PhotoIdArg[0] && "photo_detail"[0] != SecretArg[0] && PhotoIdArg[1] != SecretArg[1];
  }

  /** The built route is the detail template with both placeholders filled in. */
  lemma RouteFillsTemplate(photoId: string, secret: string)
    ensures PhotoDetailRoute(photoId, secret) == FillTemplate(PhotoDetailTemplate, photoId, secret)
  {
    TemplateSegments();
    BindTemplateSegments(photoId, secret);
    JoinThree("photo_detail", photoId, secret, '/');
    assert "photo_detail" + ['/'] == "photo_detail/";
  }

  /** When neither argument holds a '/', the route splits back into its prefix and the two arguments. */
  lemma RouteSplitsBack(photoId: string, secret: string)
    requires '/' !in photoId && '/' !in secret
    ensures Split(PhotoDetailRoute(photoId, secret), '/') == ["photo_detail", photoId, secret]
  {
    JoinThree("photo_detail", photoId, secret, '/');
    assert "photo_detail" + ['/'] == "photo_detail/";
    assert '/' !in "photo_detail";
    SplitJoin(["photo_detail", photoId, secret], '/');
  }
}

=== FILE: sync_properties.dfy ===
/**
 * How the list screen and the background poll meet in the snapshot store:
 * the effects the list view model emits, applied to the store, and what the
 * next poll run then sees.
 */
module SyncProperties {
  import opened Wrappers
  import opened Results
  import opened Text
  import opened Domain
  import opened ListState
  import opened ListViewModel
  import PollStore
  import opened PollWorker

  /** The store after the view model's effects ran in order; scheduling and navigation leave it alone. */
  function ApplyEffects(prefs: PollStore.Prefs, effects: seq<Effect>): PollStore.Prefs
    decreases |effects|
  {
    if effects == [] then prefs
    else
      var next := match effects[0]
        case SavePollState(query, ids) => PollStore.SavePollState(prefs, query, ids)
        case ClearPollState => PollStore.ClearPollState(prefs)
        case _ => prefs;
      ApplyEffects(next, effects[1..])
  }

  /**
   * `cancelPolling` stops the unique poll work by its name and leaves the
   * store without a snapshot, whatever it held.
   */
  lemma CancelPollingClearsStore(prefs: PollStore.Prefs)
    ensures CancelUniqueWork("photos_poll") in CancelPolling
    ensures PollStore.Read(ApplyEffects(prefs, CancelPolling)) == None
  {
    assert CancelPolling[1..] == [ClearPollState];
    assert ApplyEffects(prefs, CancelPolling) == ApplyEffects(prefs, CancelPolling[1..]);
  }

  /**
   * `persistAndSchedulePolling` leaves the store holding the query with the
   * set of the given ids, and only after that save (re)enqueues the unique
   * poll work with REPLACE.
   */
  lemma PersistThenSchedule(prefs: PollStore.Prefs, firstPageIds: seq<string>, query: string)
    ensures var effects := PersistAndSchedulePolling(firstPageIds, query);
      && PollStore.Read(ApplyEffects(prefs, effects)) == Some(PollStore.ActiveSearchPollState(query, PollStore.ToSet(firstPageIds)))
      && effects[0].SavePollState? && effects[|effects| - 1] == EnqueueUniquePeriodicWork("photos_poll", ReplaceExisting)
  {
    var effects := PersistAndSchedulePolling(firstPageIds, query);
    var saved := PollStore.SavePollState(prefs, query, firstPageIds);
    assert effects[1..] == [EnqueueUniquePeriodicWork(WorkName, ReplaceExisting)];
    assert ApplyEffects(saved, effects[1..]) == ApplyEffects(saved, []);
  }

  /** After `ClearSearch` the store holds no snapshot, so the next poll run does nothing. */
  lemma ClearSearchStopsPolling(vm: ListVm, prefs: PollStore.Prefs, fetched: KResult<PagedResult>)
    ensures var cleared := ApplyEffects(prefs, Dispatch(vm, ClearSearch).effects);
      && PollStore.Read(cleared) == None
      && PollCycle(cleared, fetched) == (PollRun(WorkSuccess, None, None, None), cleared)
  {
    var effects := Dispatch(vm, ClearSearch).effects;
    var p1 := PollStore.ClearPollState(prefs);
    assert effects[1..] == [ClearPollState, effects[2]];
    assert effects[2..] == [effects[2]];
    assert ApplyEffects(prefs, effects) == ApplyEffects(p1, effects[2..]);
  }

  /** The set of the ids of a list of photos is the list's id set. */
  lemma IdsToSet(items: seq<Photo>)
    ensures PollStore.ToSet(Ids(items)) == IdSet(items)
  {
    var ids := Ids(items);
    forall id | id in IdSet(items) ensures id in PollStore.ToSet(ids) {
      var p :| p in items && p.id == id;
      var i :| 0 <= i < |items| && items[i] == p;
      assert ids[i] == id;
    }
  }

  /**
   * A search whose first page (of at most 30 photos, the size both sides ask
   * for) is shown leaves the store holding that query and exactly that page's
   * ids; the next poll run asks for page 1 of the same query, and if the page
   * is unchanged it raises no notification.
   */
  lemma ShownSearchIsPolledSilently(vm: ListVm, ticket: nat, page: PagedResult, prefs: PollStore.Prefs)
    requires ticket in vm.inFlight && vm.inFlight[ticket].feed.SearchFeed?
    requires !IsBlank(vm.inFlight[ticket].feed.query)
    requires !MergesInto(vm.state, vm.inFlight[ticket].feed.query, vm.inFlight[ticket].replace)
    requires page.items != [] && |page.items| <= PageSize
    ensures var q := vm.inFlight[ticket].feed.query;
      var stored := ApplyEffects(prefs, Complete(vm, ticket, Success(page)).effects);
      var (run, _) := PollCycle(stored, Success(page));
      && PollStore.Read(stored) == Some(PollStore.ActiveSearchPollState(q, IdSet(page.items)))
      && run.request == Some(SearchRequest(q, 1, PageSize))
      && run.notifyCount == None
  {
    var q := vm.inFlight[ticket].feed.query;
    var effects := Complete(vm, ticket, Success(page)).effects;
    assert Take(page.items, PageSize) == page.items;
    assert effects == PersistAndSchedulePolling(Ids(page.items), q);
    var saved := PollStore.SavePollState(prefs, q, Ids(page.items));
    assert effects[0] == SavePollState(q, Ids(page.items));
    assert effects[1..] == [EnqueueUniquePeriodicWork(WorkName, ReplaceExisting)];
    assert ApplyEffects(saved, effects[1..]) == ApplyEffects(saved, []);
    assert ApplyEffects(prefs, effects) == ApplyEffects(saved, effects[1..]);
    IdsToSet(page.items);
    assert PollStore.Read(saved) == Some(PollStore.ActiveSearchPollState(q, IdSet(page.items)));
    assert page.items[0].id in IdSet(page.items);
    ReorderOrRemovalIsSilent(PollStore.ActiveSearchPollState(q, IdSet(page.items)), page);
  }
}

=== FILE: text.dfy ===
/**
 * The few pieces of the Kotlin standard library the photo code relies on:
 * `isBlank`, `ifBlank`, `toIntOrNull`, `Int.toString`, and splitting a path
 * on '/' (how a navigation route is matched back into its arguments).
 */
module Text {
  import opened Wrappers

  /**
   * `Char.isWhitespace()` on the JVM: `Character.isWhitespace` or
   * `Character.isSpaceChar`, written out as the code points it accepts.
   */
  predicate IsWhitespace(c: char) {
    || c == '\t' || c == '\n' || c == '\U{000B}' || c == '\U{000C}' || c == '\r'
    || ('\U{001C}' <= c <= '\U{001F}')
    || c == ' ' || c == '\U{00A0}' || c == '\U{1680}'
    || ('\U{2000}' <= c <= '\U{200A}')
    || c == '\U{2028}' || c == '\U{2029}' || c == '\U{202F}' || c == '\U{205F}' || c == '\U{3000}'
  }

  /**
   * `CharSequence.isBlank()`: empty or whitespace only. Read from the front,
   * the empty text is blank, and a longer one is blank exactly when its first
   * character is whitespace and the rest is blank.
   */
  predicate IsBlank(s: string)
    ensures s == [] ==> IsBlank(s)
    ensures |s| > 0 ==> (IsBlank(s) <==> IsWhitespace(s[0]) && IsBlank(s[1..]))
  {
    forall i :: 0 <= i < |s| ==> IsWhitespace(s[i])
  }

  /** `s.ifBlank { fallback }`. */
  function IfBlank(s: string, fallback: string): string {
    if IsBlank(s) then fallback else s
  }

  /** `take(n)` on a list: the first `n` elements, or all of them when there are fewer. */
  function Take<T>(s: seq<T>, n: nat): (r: seq<T>)
    ensures |r| == (if |s| <= n then |s| else n) && r <= s
  {
    if |s| <= n then s else s[..n]
  }

  // ---------------------------------------------------------------------------
  // Decimal integers: `String.toIntOrNull()` and `Int.toString()`.
  // ---------------------------------------------------------------------------

  const IntMin: int := -0x8000_0000
  const IntMax: int := 0x7FFF_FFFF

  predicate IsDigit(c: char) {
    '0' <= c <= '9'
  }

  predicate AllDigits(s: string) {
    forall i :: 0 <= i < |s| ==> IsDigit(s[i])
  }

  function DigitValue(c: char): nat
    requires IsDigit(c)
  {
    c as int - '0' as int
  }

  function DigitChar(d: nat): char
    requires d < 10
  {
    ('0' as int + d) as char
  }

  /** The value of a string of decimal digits, most significant first. */
  function DigitsValue(s: string): nat
    requires AllDigits(s)
    decreases |s|
  {
    if s == [] then 0 else DigitsValue(s[..|s| - 1]) * 10 + DigitValue(s[|s| - 1])
  }

  /** The digits of a numeral: the text after an optional leading '+' or '-'. */
  function NumeralDigits(s: string): string
    requires |s| > 0
  {
    if s[0] == '+' || s[0] == '-' then s[1..] else s
  }

  /** A decimal numeral: an optional sign followed by at least one digit. */
  predicate IsNumeral(s: string) {
    |s| > 0 && |NumeralDigits(s)| > 0 && AllDigits(NumeralDigits(s))
  }

  /** The value a numeral spells, negated after a '-'; leading zeros are allowed. */
  function NumeralValue(s: string): int
    requires IsNumeral(s)
  {
    if s[0] == '-' then -(DigitsValue(NumeralDigits(s)) as int) else DigitsValue(NumeralDigits(s))
  }

  /**
   * `String.toIntOrNull()` in radix 10: an optional single '+' or '-', then at
   * least one decimal digit, with a value inside the 32-bit `Int` range.
   */
  function ToIntOrNull(s: string): (r: Option<int>)
    ensures r.Some? ==> IntMin <= r.value <= IntMax
    ensures r.Some? ==> |s| > 0 && (IsDigit(s[0]) || s[0] == '+' || s[0] == '-')
    ensures r.Some? && r.value < 0 ==> s[0] == '-'
    ensures |s| > 0 && !IsDigit(s[0]) && s[0] != '+' && s[0] != '-' ==> r.None?
    ensures |s| <= 1 && !AllDigits(s) ==> r.None?
    ensures r.Some? ==> AllDigits(if s[0] == '+' || s[0] == '-' then s[1..] else s)
    ensures r.Some? <==> IsNumeral(s) && IntMin <= NumeralValue(s) <= IntMax
    ensures r.Some? ==> r.value == NumeralValue(s)
  {
    if |s| == 0 then None
    else
      var negative := s[0] == '-';
      var digits := if s[0] == '-' || s[0] == '+' then s[1..] else s;
      if digits == [] || !AllDigits(digits) then None
      else
        var v := if negative then -(DigitsValue(digits) as int) else DigitsValue(digits);
        if IntMin <= v <= IntMax then Some(v) else None
  }

  /** The decimal digits of a natural number, without leading zeros. */
  function NatToDigits(n: nat): string
    decreases n
  {
    if n < 10 then [DigitChar(n)] else NatToDigits(n / 10) + [DigitChar(n % 10)]
  }

  /** `Int.toString()`. */
  function IntToString(n: int): string {
    if n < 0 then "-" + NatToDigits(-n) else NatToDigits(n)
  }

  lemma {:induction false} NatToDigitsValue(n: nat)
    ensures |NatToDigits(n)| > 0 && AllDigits(NatToDigits(n))
    ensures DigitsValue(NatToDigits(n)) == n
    decreases n
  {
    if n >= 10 {
      NatToDigitsValue(n / 10);
      var s := NatToDigits(n / 10);
      var t := s + [DigitChar(n % 10)];
      assert t[..|t| - 1] == s;
      assert DigitValue(t[|t| - 1]) == n % 10;
    }
  }

  /** Reading back what `Int.toString()` printed gives the same number. */
  lemma ToIntOrNullRoundTrip(n: int)
    requires IntMin <= n <= IntMax
    ensures ToIntOrNull(IntToString(n)) == Some(n)
  {
    if n < 0 {
      NatToDigitsValue(-n);
      var s := IntToString(n);
      assert s[1..] == NatToDigits(-n);
    } else {
      NatToDigitsValue(n);
      var s := NatToDigits(n);
      assert IsDigit(s[0]);
    }
  }

  // ---------------------------------------------------------------------------
  // Splitting and joining on a separator.
  // ---------------------------------------------------------------------------

  /** The position of the first `c` in `s`. */
  function IndexOf(s: string, c: char): (k: nat)
    requires c in s
    ensures k < |s| && s[k] == c
    ensures forall j :: 0 <= j < k ==> s[j] != c
  {
    if s[0] == c then 0 else 1 + IndexOf(s[1..], c)
  }

  /** `s.split(sep)`: the pieces between separators; there is always one more piece than separators. */
  function Split(s: string, sep: char): (parts: seq<string>)
    ensures |parts| >= 1
    ensures forall i :: 0 <= i < |parts| ==> sep !in parts[i]
    decreases |s|
  {
    if sep !in s then [s]
    else
      var k := IndexOf(s, sep);
      [s[..k]] + Split(s[k + 1..], sep)
  }

  /** `parts.joinToString(sep)`. */
  function Join(parts: seq<string>, sep: char): string
    requires |parts| >= 1
    decreases |parts|
  {
    if |parts| == 1 then parts[0] else parts[0] + [sep] + Join(parts[1..], sep)
  }

  /** Splitting at the first separator: a piece without `sep` comes off the front. */
  lemma SplitFirst(a: string, sep: char, b: string)
    requires sep !in a
    ensures Split(a + [sep] + b, sep) == [a] + Split(b, sep)
  {
    var s := a + [sep] + b;
    assert s[|a|] == sep;
    var k := IndexOf(s, sep);
    assert k == |a|;
    assert s[..k] == a;
    assert s[k + 1..] == b;
  }

  /** Joining pieces that contain no separator and splitting again recovers the pieces. */
  lemma {:induction false} SplitJoin(parts: seq<string>, sep: char)
    requires |parts| >= 1
    requires forall i :: 0 <= i < |parts| ==> sep !in parts[i]
    ensures Split(Join(parts, sep), sep) == parts
    decreases |parts|
  {
    if |parts| > 1 {
      SplitJoin(parts[1..], sep);
      SplitFirst(parts[0], sep, Join(parts[1..], sep));
      assert parts == [parts[0]] + parts[1..];
    }
  }
}

=== FILE: wrappers.dfy ===
/** Kotlin's nullable types, written as an explicit Option. */
module Wrappers {

  /** `T?` in Kotlin: `None` is `null`. */
  datatype Option<+T> = None | Some(value: T) {

    /** The Elvis operator `x ?: default`. */
    function GetOr(default: T): T {
      match this
      case Some(v) => v
      case None => default
    }
  }
}

/** Kotlin's `Result<T>` and the throwables the photo code creates or catches. */
module Results {
  import opened Wrappers

  /**
   * The exceptions that reach the photo code. `FlickrApiException` is the
   * repository's own class; an `IOException` carries the optional message and
   * cause of `java.io.IOException`; anything else is an opaque throwable.
   */
  datatype Throwable =
    | FlickrApiException(code: int, message: string)
    | IOException(ioMessage: Option<string>, cause: Option<Throwable>)
    | IllegalArgumentException(argMessage: string)
    | OtherThrowable(otherMessage: Option<string>)

  /** `kotlin.Result<T>`: a value or the throwable that was caught. */
  datatype KResult<+T> = Success(value: T) | Failure(error: Throwable)
}
